=== FILE: README.md ===
# Synology NAS manager: a Dafny model of the client core

`synology_nas_manager.py` is a desktop client for the FileStation web API of a
Synology NAS. Once its windows, threads and HTTP calls are set aside, three
groups of deterministic logic remain. This project models each of them and
proves properties about the model:

- **Display and path helpers.** These are `format_file_size` (modelled in integers, with Python's
  round-half-to-even), `get_file_type_display` with `os.path.splitext`
  semantics, `is_image_file` and `is_video_file`, the child-path join
  `parent.rstrip('/') + '/' + name`, and the thumbnail cache keyed by
  `filename_viewmode`.
- **Profile store.** This covers the login form, the "remember password" flag, the named
  profiles (an insertion-ordered dictionary), the profile combo box with its
  "新建配置..." entry, and the configuration file. The file is modelled as an
  ordered map of sections: a `SETTINGS` section plus one `PROFILE_<name>`
  section per profile. Reading it back strips values, reads the flag as
  `getboolean` does and rebuilds the profiles from the prefixed sections.
  Password encryption is a pair of partial functions (`Vault`). The client
  wraps it so that an empty input or any failure gives the empty string.
- **Session state machine.** The state holds the profile store, the session mark
  (`"cookie_auth"` or none), the credentials of the last login, the current
  folder and the thumbnail cache. Every server reply is an input value:
  - a library failure (timeout, connection error, HTTP error status, undecodable body), or
  - an answer with status, content type and an optional JSON body (success flag, error code, data).

  The modelled operations are:
  - login validation;
  - the login sequence: API probe, authentication, marking the session, then the mandatory session check;
  - `refresh_session_if_needed`, `try_auto_login` and `logout`;
  - the reply handling of listing (one fallback request without `additional` on code 400);
  - upload (error-code table; code 119 drops the session and schedules an automatic login);
  - download (a JSON reply with success false raises; the write loop).

The modules follow the program's structure:

| module | file |
|---|---|
| `Wrappers`, `Text` | `text.dfy` |
| `Dicts` | `dicts.dfy` |
| `FileSize` | `filesize.dfy` |
| `FileTypes` | `filetypes.dfy` |
| `Paths`, `Thumbnails` | `paths.dfy` |
| `Vault` | `vault.dfy` |
| `ConfigFile` | `configfile.dfy` |
| `Profiles` | `store.dfy` |
| `Replies` | `replies.dfy` |
| `Session` | `session.dfy` |
| `Transfers` | `transfers.dfy` |

Where the code and the repository's own design description disagree, the model
follows the code:

- The description asks for a uniform "retry once after re-login" on a session-not-found error for every operation. The code has none:
  - upload code 119 only drops the session and schedules an automatic login;
  - listing and download never retry.
- The description says a failed re-validation makes the client unauthenticated. The code behaves differently in two places:
  - `refresh_session_if_needed` leaves the session mark set when it fails (`Session.RefreshSessionIfNeeded` keeps the state);
  - a login whose final session check fails also leaves the mark set (`Session.FailedCheckLeavesSessionMarked`).
- The description says profile parse failures only skip a profile. In the code, a `remember_password` value that is not a boolean aborts the whole load (`Profiles.LoadConfig`). The next save then replaces the file with the profiles created since (`Profiles.SaveIntoEmptyStore`).
- The description speaks of one retry "on a parameter-rejection response". The code retries only when the error code is 400. It does not check the status of the retry (`Transfers.FallbackIgnoresStatus`).

## Model

| member | source | states |
|---|---|---|
| FileSize.FormatFileSize | synology_nas_manager.py:1920-1923 | A size of zero prints as "0 B", and no size prints as empty text. |
| FileSize.FormatFileSizeSpec | synology_nas_manager.py:1920-1929 | For n ≥ 1 the text is fully determined by two things: the unit index characterised by `IsUnitIndex` (the largest power of 1024 not above n, capped at TB) and the tenths given by n/1024^i correctly rounded half to even. |
| FileSize.UnitIndexUnique | synology_nas_manager.py:1924-1928 | At most one unit index satisfies that characterisation, so the loop's stopping point is the unit. |
| FileSize.ScaleFrom | synology_nas_manager.py:1925-1928 | Dividing by 1024 while the value is at least 1024, up to TB, stops at an index satisfying the characterisation. |
| FileSize.RoundHalfEven | synology_nas_manager.py:1929 | The computed quotient is a correctly rounded one: within half of the exact value, with a tie going to the even neighbour. |
| FileSize.RoundedQuotientIsRoundHalfEven | synology_nas_manager.py:1929 | Any correctly rounded quotient equals the computed one. |
| FileSize.RoundedQuotientUnique | synology_nas_manager.py:1929 | The correctly rounded quotient is unique. |
| FileSize.Shown | synology_nas_manager.py:1920-1929 | Positive sizes get the characterised unit and rounded tenths. Negative sizes stay in bytes. |
| FileSize.FormatFileSizeOf1536 | synology_nas_manager.py:1920-1929 | 1536 prints "1.5 KB". |
| FileSize.FormatFileSizeOf1GiB | synology_nas_manager.py:1920-1929 | 1073741824 prints "1.0 GB". |
| FileSize.FormatFileSizeOf1280 | synology_nas_manager.py:1920-1929 | 1280 (1.25 KB, a tie) prints "1.2 KB". |
| FileSize.FormatFileSizeOf1MiBMinusOne | synology_nas_manager.py:1920-1929 | 1048575 stays in KB and prints "1024.0 KB". |
| FileSize.FormatFileSizeOfNegative | synology_nas_manager.py:1920-1929 | -5 is never divided and prints "-5.0 B". |
| FileTypes.SplitExt | synology_nas_manager.py:1937 | The stem and the extension concatenate to the name. The extension is empty or starts with its only dot, and it contains no slash. |
| FileTypes.ExtensionCharacterised | synology_nas_manager.py:1937 | The extension is non-empty exactly when the last path component has a dot preceded by some non-dot character. |
| FileTypes.FileTypeDisplay | synology_nas_manager.py:1931-2044 | Directories get "[文件夹]". Files get the table entry of their lowercased extension. Otherwise they get "[文件] " and the extension in capitals without its dot, or "[文件] 未知" when there is no extension. |
| FileTypes.IsImageFile | synology_nas_manager.py:2046-2053 | True exactly when the lowercased extension is one of the ten image extensions. The explicit guard for "" agrees with this. |
| FileTypes.IsVideoFile | synology_nas_manager.py:2055-2062 | True exactly when the lowercased extension is one of the twelve video extensions. |
| FileTypes.ImageVideoDisjoint | synology_nas_manager.py:2046-2062 | No name is both an image and a video. |
| FileTypes.ImagesDisplayAsImages | synology_nas_manager.py:1931-2053 | Every previewable image except TIFF is labelled "[图片] …". |
| FileTypes.TiffDisplaysAsOther | synology_nas_manager.py:1931-2053 | A ".TIFF" file is an image but is labelled "[文件] TIFF". |
| FileTypes.VideosDisplayAsVideos | synology_nas_manager.py:1931-2062 | Every video with a table entry is labelled "[视频] …". |
| FileTypes.DisplayOfPhoto | synology_nas_manager.py:1931-2044 | "photo.JPG" is labelled "[图片] JPG". |
| FileTypes.DisplayOfDoubleSuffix | synology_nas_manager.py:1931-2044 | "backup.tar.gz" is labelled by its last suffix, "[压缩] GZ". |
| FileTypes.DisplayOfDotFile | synology_nas_manager.py:1931-2044 | ".bashrc" has no extension and is "[文件] 未知". |
| FileTypes.DisplayOfUnlistedExtension | synology_nas_manager.py:1931-2044 | "notes.xyz" is "[文件] XYZ". |
| FileTypes.FolderTestMisreadsFile | synology_nas_manager.py:1595 | The folder test as written takes the regular file "x.文件夹" for a folder. |
| FileTypes.FolderRowIffDirectory | synology_nas_manager.py:1931-1934 | The corrected test (type text equals "[文件夹]") holds exactly for directories. |
| Paths.ChildPath | synology_nas_manager.py:1391 | The result is the parent without its trailing slashes, one slash, then the name. |
| Paths.ChildOfRoot | synology_nas_manager.py:1709-1712 | Under "/" the child is "/" + name. |
| Paths.ChildPathIgnoresTrailingSlash | synology_nas_manager.py:1596 | A parent with an extra trailing slash names the same children. |
| Paths.DownloadPath | synology_nas_manager.py:1709-1712 | The download's special case for the root agrees with the general join. |
| Thumbnails.GetImageThumbnail | synology_nas_manager.py:2064-2078 | A lookup hits exactly when the key "file_mode" is cached and returns that entry. Otherwise it schedules a load of that key. |
| Thumbnails.CacheKeyInjective | synology_nas_manager.py:2070 | Keys of view modes without '_' never collide. |
| Thumbnails.StoreThumbnail | synology_nas_manager.py:2181-2184 | A finished load adds its entry only when a thumbnail was rendered. Other entries are kept. |
| Thumbnails.StoreThenGet | synology_nas_manager.py:2064-2078 | A stored thumbnail is what the next lookup of the same file and mode returns. |
| Thumbnails.StoreLeavesOtherLookups | synology_nas_manager.py:2181-2184 | Storing one file and mode changes no other lookup for the five view modes. |
| Thumbnails.ClearThumbnailCache | synology_nas_manager.py:2192-2196 | After clearing, every lookup schedules a load. |
| Vault.EncryptPassword | synology_nas_manager.py:903-914 | "" encrypts to "". A non-empty result is the cipher's output, and a failure gives "". |
| Vault.DecryptPassword | synology_nas_manager.py:916-928 | "" and any failure decrypt to "". A non-empty result is the cipher's output. |
| Vault.StoredPassword | synology_nas_manager.py:1137-1140 | A ciphertext is stored only when remember is on, the password is non-empty and encryption succeeded. |
| Vault.DecryptEncrypt | synology_nas_manager.py:903-928 | With a sound cipher, decrypting a non-empty ciphertext gives the password back. |
| Vault.StoredPasswordRoundTrip | synology_nas_manager.py:1137-1140 | The stored field is base64 text. It decrypts to the typed password, or it is empty and decrypts to "". |
| Vault.ForeignKeyClearsPassword | synology_nas_manager.py:916-928 | With a key that decrypts nothing (another machine or folder), every stored password loads as "". |
| ConfigFile.SectionName | synology_nas_manager.py:943 | A profile's section is "PROFILE_" followed by the name. |
| ConfigFile.SectionNameInjective | synology_nas_manager.py:943 | Different profiles get different sections. |
| ConfigFile.SettingsIsNoSectionName | synology_nas_manager.py:936-943 | No profile section is the SETTINGS section. |
| ConfigFile.Write | synology_nas_manager.py:930-943 | The written file is well formed. Its sections are SETTINGS, then one per profile in dictionary order. SETTINGS holds the selection and the flag as "True"/"False", and each profile section holds its three fields. |
| ConfigFile.ReadValue | synology_nas_manager.py:958-959 | Values read back are stripped. They are never longer than written, and already-stripped text is unchanged. |
| ConfigFile.ParseBool | synology_nas_manager.py:964 | The flag reads true for 1/yes/true/on and false for 0/no/false/off, in any case. Anything else is rejected. |
| ConfigFile.ParseBoolText | synology_nas_manager.py:936-964 | The written "True"/"False" reads back as the same boolean. |
| ConfigFile.ProfileNames | synology_nas_manager.py:970-974 | Every loaded name comes from a section named with the prefix, and distinct sections give distinct names. |
| ConfigFile.CollectProfiles | synology_nas_manager.py:969-974 | The loaded profiles are exactly the prefixed sections, each parsed with "" for a missing field. |
| ConfigFile.Read | synology_nas_manager.py:951-975 | The load fails exactly when SETTINGS has a flag that is not a boolean. Without SETTINGS, the flag is absent and the selection is "". With it, the flag is present and the selection is its `last_profile` value. The profiles are those of the prefixed sections. |
| ConfigFile.ProfileNamesWritten | synology_nas_manager.py:942-974 | Reading the section list of a written file gives back the profile names in order. |
| ConfigFile.CollectWritten | synology_nas_manager.py:942-974 | Reading a written file gives the same profile names, each with stripped fields. |
| ConfigFile.WriteThenRead | synology_nas_manager.py:930-975 | A write followed by a read succeeds and restores the flag, the stripped selection and the profiles (stripped). |
| ConfigFile.NoPercentAccepted | synology_nas_manager.py:933 | The default interpolation accepts a value without '%'. |
| ConfigFile.LonePercentRejected | synology_nas_manager.py:933 | The default interpolation rejects "50%". |
| ConfigFile.WriteAsWritten | synology_nas_manager.py:930-949 | The save as written fails, writing nothing, exactly when some value is rejected by the interpolation. |
| ConfigFile.PercentNameBlocksWrite | synology_nas_manager.py:936-949 | With a selected profile named "50%", nothing is ever saved. |
| ConfigFile.WritersAgreeWithoutPercent | synology_nas_manager.py:930-949 | Without '%' in any value, the save as written and the corrected save produce the same file. |
| Profiles.Initial | synology_nas_manager.py:286-302 | The window opens with an empty form, no profiles and remember off. |
| Profiles.UpdateProfileCombo | synology_nas_manager.py:1034-1041 | The combo lists the profiles in order, then "新建配置...". The selection is cleared exactly when there are no profiles. |
| Profiles.SaveConfig | synology_nas_manager.py:930-949 | Saving changes only the file. Reading the file back gives the store's flag, its stripped selection and its profiles (stripped). This is the save without interpolation. |
| Profiles.FormFrom | synology_nas_manager.py:1058-1075 | The form gets the profile's address and user. It gets the decrypted password only when remember is on; otherwise the password is "". |
| Profiles.LoadProfile | synology_nas_manager.py:1051-1075 | An unknown name changes nothing. A known one fills the form from the profile. |
| Profiles.CreateNewProfile | synology_nas_manager.py:1077-1107 | The name is trimmed. A blank name or a cancelled dialog does nothing, and a taken name is refused. Otherwise exactly one empty profile is appended and selected, the form is blanked, the combo box is refilled, and nothing is saved. It also applies to the store left by an aborted load. |
| Profiles.SaveCurrentProfile | synology_nas_manager.py:1109-1148 | Without a named selection a profile is created instead. A blank trimmed address or user is refused. Otherwise the trimmed fields and the stored password replace the profile, and the file is written. It also applies to the store left by an aborted load. |
| Profiles.AutoSave | synology_nas_manager.py:1007-1031 | A save happens only when the selection is an existing profile. It stores the untrimmed fields and writes the file. The combo box is kept. |
| Profiles.DeleteCurrentProfile | synology_nas_manager.py:1150-1181 | Without a named selection it only warns, and without confirmation nothing happens. Otherwise only the selected key is removed, the others stay in order, the form and selection are cleared, and the file is written. |
| Profiles.ClearAllProfiles | synology_nas_manager.py:1183-1214 | With no profiles it only informs. With confirmation the file is gone, no profiles remain, remember is off and the form is blank. |
| Profiles.OnProfileSelected | synology_nas_manager.py:1043-1049 | The sentinel opens the new-profile dialog. A profile name loads that profile. |
| Profiles.ForgetPasswords | synology_nas_manager.py:988-991 | Every profile is kept, in order, with its password field emptied. |
| Profiles.RememberToggledAsWritten | synology_nas_manager.py:988-996 | As written, unchecking rewrites the file with the profiles as they are. Checking rewrites it only when a password is typed. |
| Profiles.RememberToggled | synology_nas_manager.py:988-996 | Corrected: unchecking forgets every stored password and rewrites the file. Checking behaves as written. |
| Profiles.UncheckKeepsCiphertextAsWritten | synology_nas_manager.py:988-991 | As written, a ciphertext stays in the file after "remember" is unchecked. |
| Profiles.UncheckForgetsPasswords | synology_nas_manager.py:988-991 | Corrected: after unchecking, no profile in the file holds a password. |
| Profiles.Adopt | synology_nas_manager.py:962-983 | A successful load takes over the profiles and the flag and refills the combo box. The last profile is selected and loaded only if it still exists; otherwise the form stays blank. |
| Profiles.LoadConfig | synology_nas_manager.py:951-986 | With no file, only the combo box is filled. A bad flag leaves the window as opened. Otherwise the load is adopted. |
| Profiles.SaveThenLoadRestoresForm | synology_nas_manager.py:1051-1148 | Loading a saved profile gives the trimmed address and user. The password comes back exactly when it was remembered and encrypted; otherwise it is "". |
| Profiles.RestartRestoresSaved | synology_nas_manager.py:930-986 | After a save, a restart selects the saved profile, restores the flag and the profile order, and fills the form as loading in the running program would. |
| Profiles.DeleteThenRestart | synology_nas_manager.py:1150-1181 | After a delete, a restart finds the other profiles in order, and nothing is selected. |
| Profiles.ClearThenRestart | synology_nas_manager.py:1183-1214 | After clearing, a restart finds no profiles and remember off. |
| Profiles.BadFlagLoadKeepsNoProfiles | synology_nas_manager.py:951-986 | A load aborted by a bad flag keeps the file but leaves no profile in the store, which stays usable. |
| Profiles.SaveIntoEmptyStore | synology_nas_manager.py:1077-1148 | From a store without profiles, such as that one, creating and saving one profile writes a file holding that profile alone. The profiles the aborted load never read are lost. |
| Replies.CodeText | synology_nas_manager.py:734 | A numeric code is printed in decimal. An absent code prints "unknown". |
| Replies.CheckedJson | synology_nas_manager.py:708-711 | A body is usable exactly when the request did not fail, the status is not 4xx/5xx and the body is JSON. |
| Replies.UncheckedJson | synology_nas_manager.py:815-816 | Without the status check, only a failure or a non-JSON body is unusable. |
| Replies.CodeMessage | synology_nas_manager.py:735-743 | A known code gets its fixed text. Any other code gets the fallback text followed by the code. |
| Replies.CodeMessageIdentifiesCode | synology_nas_manager.py:735-743 | With distinct fixed texts that never start like the fallback, the message determines the numeric code. |
| Session.Opened | synology_nas_manager.py:286-302 | The window opens with no session, no remembered login, folder "/" and an empty cache. |
| Session.ValidateLogin | synology_nas_manager.py:672-691 | Login starts exactly when the trimmed address, user and password are all non-empty. The first blank field is reported. |
| Session.AuthMessage | synology_nas_manager.py:733-743 | Codes 400-404 get their fixed texts. Any other code gets "登录失败，错误代码: " followed by the code. |
| Session.AuthMessageIdentifiesCode | synology_nas_manager.py:735-743 | Distinct numeric authentication codes give distinct messages. |
| Session.NetworkMessage | synology_nas_manager.py:755-758 | Only timeouts and connection errors get the client's own texts. |
| Session.VerifySession | synology_nas_manager.py:798-822 | Without a session the check is false. Otherwise it is true exactly when the reply is JSON with success, whatever its status. |
| Session.OnLoginSuccess | synology_nas_manager.py:762-789 | The typed credentials become the last login. The selected profile is auto-saved only if it exists, and the profiles kept are those of that auto-save. The file written reads back with the same remember flag, the selection as last profile, and the same profiles up to trimming. |
| Session.LoginThread | synology_nas_manager.py:693-760 | The login succeeds exactly when the probe, the authentication and the session check all succeed. Only success records the login and writes the file. The session is marked "cookie_auth" exactly when the probe and the authentication succeeded. Otherwise nothing changes. Each failure names its error: a network failure for a bad probe or authentication reply, the probe's code for a refused probe, a missing key for a probe without data, the message for the code (`AuthMessage`) for a refused authentication, and a failed verification otherwise. |
| Session.LoginSucceedsOnlyWhenVerified | synology_nas_manager.py:733-753 | A successful login implies that the authentication reply and the session check both reported success. |
| Session.FailedCheckLeavesSessionMarked | synology_nas_manager.py:745-750 | When the check after a successful authentication fails, the error is reported but the session mark stays set. |
| Session.RefreshSessionIfNeeded | synology_nas_manager.py:824-856 | Without a session or a last login the answer is false. A passing check answers true without re-authenticating. Otherwise exactly one re-authentication decides, and the state is unchanged. |
| Session.TryAutoLogin | synology_nas_manager.py:858-882 | A reconnect is attempted exactly when a last login exists. A successful one records that same login again. |
| Session.LogOut | synology_nas_manager.py:1216-1261 | A request is sent only with a session. Whatever it answers, the session and the last login are cleared, the folder becomes "/" and the cache is emptied. The password field is cleared unless remember is on. |
| Session.LogoutEndsSession | synology_nas_manager.py:1216-1240 | After logout, the session check, the refresh and the automatic login all fail. |
| Session.LoginThenRefresh | synology_nas_manager.py:824-833 | After a successful login, a later refresh whose check passes keeps the session without re-authenticating. |
| Session.OnDirectorySelect | synology_nas_manager.py:1318-1329 | A non-empty tree path becomes the current folder. Anything else changes nothing. |
| Transfers.FilesOf | synology_nas_manager.py:1513 | A successful body lists its files, or fails for a missing key. |
| Transfers.LoadFiles | synology_nas_manager.py:1473-1517 | A second, plain request is sent exactly when the first reply is usable JSON refused with code 400. A failed first request reports its failure. A successful first reply lists its own files. Any other refusal reports its code. After the fallback, a successful second reply lists its files, a refusal reports its code, and an unusable reply reports its failure. |
| Transfers.FallbackIgnoresStatus | synology_nas_manager.py:1497-1509 | A successful fallback body is used whatever its HTTP status. |
| Transfers.RowOf | synology_nas_manager.py:1529-1540 | A row shows the name and the type text. It shows a size exactly for files whose listing has one, formatted as above. |
| Transfers.RowFolderIffDirectory | synology_nas_manager.py:1529-1534 | Under the corrected test, a row is a folder row exactly when its entry is a directory. |
| Transfers.OnFileDoubleClick | synology_nas_manager.py:1580-1607 | The folder test is a parameter: `AsWritten` (line 1595) or `Corrected`. No selection is ignored. A row taken for a folder is entered below the current folder. Any other row opens an image preview if it is an image, then a video preview if it is a video, and is otherwise ignored. |
| Transfers.DoubleClickEntersFolder | synology_nas_manager.py:1594-1600 | Under either folder test, double-clicking a listed directory enters the parent joined with its name. |
| Transfers.DoubleClickOnFolderWordFile | synology_nas_manager.py:1595 | As written, double-clicking the regular file "x.文件夹" tries to enter it as a folder. The corrected test ignores it. |
| Transfers.CheckSession | synology_nas_manager.py:1727-1736 | A transfer needs a session. A session that fails the check is logged out, and a passing one continues unchanged. |
| Transfers.DownloadSelected | synology_nas_manager.py:1685-1725 | The folder test is a parameter, as above. Without a session nothing happens. A session that fails its check is logged out. With a verified session, a download starts exactly when a row not taken for a folder is selected and a save path is chosen; otherwise it is cancelled. The remote path is the current folder joined with the name. |
| Transfers.DownloadOfFolderWordFile | synology_nas_manager.py:1701-1705 | As written, the regular file "x.文件夹" is refused as a folder. The corrected test downloads it. |
| Transfers.UploadMessage | synology_nas_manager.py:1797-1807 | Codes 119, 407 and 1800-1805 get their fixed texts. Others get "上传失败，错误代码: " followed by the code. |
| Transfers.UploadMessageIdentifiesCode | synology_nas_manager.py:1797-1807 | Distinct numeric upload codes give distinct messages. |
| Transfers.UploadThread | synology_nas_manager.py:1751-1823 | Uploading into "/" is refused before anything is sent, and the file is posted only after a successful refresh. Success needs a usable successful reply. Only code 119 drops the session; an automatic login is scheduled only with a last login. Nothing else in the state changes. Each failure carries its message: the session-check text when the refresh fails, the raised failure for an unusable reply, the message for the code (`UploadMessage`) for any refusal except 119, and for 119 the reconnecting text (with an automatic login) or the message for 119 plus the reconnect-by-hand hint (without one). |
| Transfers.ExpiredUploadReconnects | synology_nas_manager.py:1808-1815 | After code 119 with a remembered login, the scheduled automatic login runs. |
| Transfers.ConcatLength | synology_nas_manager.py:1882-1885 | The downloaded count is the total of the chunk lengths. |
| Transfers.ConcatPrefix | synology_nas_manager.py:1878-1898 | What arrived before a stream broke is a prefix of the whole file. |
| Transfers.WriteChunks | synology_nas_manager.py:1878-1898 | The file is the chunks in order, and the count equals its length. |
| Transfers.DownloadThread | synology_nas_manager.py:1840-1904 | Without a refreshed session nothing is written. A file is written exactly when the reply passes the status check and is not a JSON error report. A JSON report with success false gives "下载失败，错误代码: " followed by the code. The file holds the chunks, and a broken stream is an error. Every failure is reported: nothing written always comes with an error, a failed request gives its failure, a 4xx/5xx status gives the HTTP error, and a JSON reply that does not decode gives the decoding error. |

## Left out

- Windows, widgets, menus, preview windows and icon drawing: these are presentation only.
- Threads and `root.after`: each operation is one sequential step. Races between concurrent re-logins are not modelled.
- HTTP: URLs, parameters, cookies, the API paths taken from the probe, and the bytes on the wire are not modelled. Every reply is an input value.
- Exception texts of the HTTP library: failures are the abstract `Replies.Failure`. Only the client's own texts are modelled.
- Cipher internals: `get_machine_key`, SHA-256, Fernet and base64 are not modelled. `Vault` is an abstract pair of partial functions for one machine key.
- `on_password_changed` and its two-second timer: the delayed call is `Profiles.AutoSave`, which is modelled.
- `load_shared_folders` and `_load_subdirectories`: they use the same checked-JSON handling as the first listing request, and they feed only the folder tree.
- Progress percentages, the status-bar texts of a running download, timestamp formatting and thumbnail scaling: these are floating point, locale and pixels.
- File-system errors while reading the upload or writing the download, and `on_closing`: the latter saves the file and logs out with the same operations that are modelled.
- FileSize.FormatFileSize: it is exact in integers. The source converts to floating point, so sizes of 2^53 bytes and more may print differently there.
- FileTypes.FileTypeDisplay: lower and upper case are mapped for ASCII letters only. Python also maps other scripts.
- FileTypes.IsImageFile: the extension is lowered for ASCII letters only. Python's `str.lower` also maps, for example, the Kelvin sign to "k".
- FileTypes.IsVideoFile: the same ASCII-only lowering. "clip.m\u212Av" is a video in the source but not in the model.
- FileTypes.SplitExt: POSIX separators only.
- ConfigFile.Read: these parts of the file format are not modelled:
  - INI text syntax and multi-line values;
  - the `DEFAULT` section;
  - options beyond the three profile fields;
  - interpolation when reading (the parser would read "%%" back as "%").
- Profiles.SaveConfig: it saves without interpolation, so it always writes. The source writes nothing when a value holds a lone '%'; only `ConfigFile.WriteAsWritten` models that. This also applies to every operation that saves through it: `Profiles.SaveCurrentProfile`, `Profiles.AutoSave`, `Profiles.DeleteCurrentProfile`, `Profiles.RememberToggled`, `Profiles.RememberToggledAsWritten` and `Session.OnLoginSuccess`.
- Session.LoginThread: the API probe's data is only checked for presence. The API paths and versions it provides are not modelled.
- Replies.Json: the success flag is a boolean. The truthiness of other JSON values is not modelled.

## Findings

| source | as written | input that shows it | evidently intended | confidence | as-written member | corrected member |
|---|---|---|---|---|---|---|
| synology_nas_manager.py:1595 | A row is a folder when its type text equals "[文件夹]" or merely contains "文件夹". The same test is used at lines 1621, 1658, 1679 and 1703. `Transfers.OnFileDoubleClick` and `Transfers.DownloadSelected` model both tests; see `Transfers.DoubleClickOnFolderWordFile` and `Transfers.DownloadOfFolderWordFile`. | The regular file "x.文件夹" is labelled "[文件] 文件夹". A double click tries to enter it as a folder, and it cannot be downloaded. | A row is a folder exactly when its type text is the folder label. | medium, not executed | FileTypes.FolderTestMisreadsFile | FileTypes.FolderRowIffDirectory |
| synology_nas_manager.py:933-943 | `save_config` uses a `ConfigParser` with the default interpolation. Setting a value with a lone '%' raises, the exception is swallowed, and the file is not written. | A profile named "50%" is selected, or an address such as "http://nas/a%20b" is saved. Every later save fails silently. | Values are stored verbatim (no interpolation). | high, not executed | ConfigFile.PercentNameBlocksWrite | ConfigFile.WriteThenRead |
| synology_nas_manager.py:988-991 | Unchecking "remember password" only rewrites the file, although the comment says it clears the passwords. The ciphertexts stay on disk. | Save a profile with remember on, then uncheck remember. The profile's ciphertext is still in the file. | Unchecking forgets every stored password before saving. | medium, not executed | Profiles.UncheckKeepsCiphertextAsWritten | Profiles.UncheckForgetsPasswords |

=== FILE: configfile.dfy ===
/**
  The configuration file `nas_config.ini`, seen as the ordered sections it
  holds: a `SETTINGS` section with `last_profile` and `remember_password`,
  then one section `PROFILE_<name>` per profile with `nas_url`, `username`
  and `password`. Reading the INI text trims whitespace around each value,
  which `ReadValue` stands for.
 */
module ConfigFile {

  import opened Wrappers
  import opened Text
  import opened Dicts

  /** A saved profile: where to connect, who as, and the encrypted password or "". */
  datatype Profile = Profile(nasUrl: string, username: string, password: string)

  type Section = map<string, string>

  /** The sections of the file in file order, each with its options. */
  type Config = Dict<Section>

  const SettingsSection := "SETTINGS"
  const ProfilePrefix := "PROFILE_"
  const LastProfileKey := "last_profile"
  const RememberKey := "remember_password"
  const NasUrlKey := "nas_url"
  const UsernameKey := "username"
  const PasswordKey := "password"

  /** `str(bool)`. */
  function BoolText(b: bool): string {
    if b then "True" else "False"
  }

  function SettingsOf(lastProfile: string, remember: bool): Section {
    map[LastProfileKey := lastProfile, RememberKey := BoolText(remember)]
  }

  function ProfileSection(p: Profile): Section {
    map[NasUrlKey := p.nasUrl, UsernameKey := p.username, PasswordKey := p.password]
  }

  function SectionName(profileName: string): (s: string)
    ensures StartsWith(s, ProfilePrefix) && s[|ProfilePrefix|..] == profileName
  {
    ProfilePrefix + profileName
  }

  function SectionNames(names: seq<string>): (r: seq<string>)
    ensures |r| == |names|
    ensures forall i :: 0 <= i < |names| ==> r[i] == SectionName(names[i])
  {
    seq(|names|, i requires 0 <= i < |names| => SectionName(names[i]))
  }

  lemma SectionNameInjective(a: string, b: string)
    requires SectionName(a) == SectionName(b)
    ensures a == b
  {
    assert a == SectionName(a)[|ProfilePrefix|..];
  }

  /** The settings section is never mistaken for a profile section. */
  lemma SettingsIsNoProfileSection()
    ensures !StartsWith(SettingsSection, ProfilePrefix)
  {
    assert SettingsSection[0] != ProfilePrefix[0];
  }

  lemma SettingsIsNoSectionName(n: string)
    ensures SectionName(n) != SettingsSection
  {
    assert SectionName(n)[0] == 'P' && SettingsSection[0] == 'S';
  }

  lemma SectionNamesDistinct(names: seq<string>)
    requires Distinct(names)
    ensures Distinct([SettingsSection] + SectionNames(names))
  {
    var all := [SettingsSection] + SectionNames(names);
    forall i, j | 0 <= i < j < |all| ensures all[i] != all[j] {
      SettingsIsNoSectionName(names[j - 1]);
      if i > 0 && all[i] == all[j] {
        SectionNameInjective(names[i - 1], names[j - 1]);
      }
    }
  }

  function ProfileSections(profiles: map<string, Profile>): (m: map<string, Section>)
    ensures forall n :: n in profiles ==> SectionName(n) in m && m[SectionName(n)] == ProfileSection(profiles[n])
    ensures forall s :: s in m ==> exists n :: n in profiles && s == SectionName(n)
  {
    forall a, b | a in profiles && b in profiles && SectionName(a) == SectionName(b)
      ensures ProfileSection(profiles[a]) == ProfileSection(profiles[b])
    {
      SectionNameInjective(a, b);
    }
    map n | n in profiles :: SectionName(n) := ProfileSection(profiles[n])
  }

  /** The sections written: every profile's, then the settings. */
  function WrittenSections(profiles: map<string, Profile>, lastProfile: string, remember: bool): (m: map<string, Section>)
    ensures SettingsSection in m && m[SettingsSection] == SettingsOf(lastProfile, remember)
    ensures forall n :: n in profiles ==> SectionName(n) in m && m[SectionName(n)] == ProfileSection(profiles[n])
    ensures forall s :: s in m && s != SettingsSection ==> exists n :: n in profiles && s == SectionName(n)
  {
    var m := ProfileSections(profiles)[SettingsSection := SettingsOf(lastProfile, remember)];
    forall n | n in profiles ensures SectionName(n) in m && m[SectionName(n)] == ProfileSection(profiles[n]) {
      SettingsIsNoSectionName(n);
    }
    m
  }

  lemma WrittenValid(profiles: Dict<Profile>, lastProfile: string, remember: bool)
    requires profiles.Valid()
    ensures Dict([SettingsSection] + SectionNames(profiles.keys), WrittenSections(profiles.items, lastProfile, remember)).Valid()
  {
    SectionNamesDistinct(profiles.keys);
    WrittenSectionsListed(profiles, lastProfile, remember);
    ListedSectionsWritten(profiles, lastProfile, remember);
  }

  lemma WrittenSectionsListed(profiles: Dict<Profile>, lastProfile: string, remember: bool)
    requires profiles.Valid()
    ensures forall k :: k in WrittenSections(profiles.items, lastProfile, remember) ==>
      k in [SettingsSection] + SectionNames(profiles.keys)
  {
    var keys := [SettingsSection] + SectionNames(profiles.keys);
    var items := WrittenSections(profiles.items, lastProfile, remember);
    forall k | k in items ensures k in keys {
      if k != SettingsSection {
        var n :| n in profiles.items && k == SectionName(n);
        var i :| 0 <= i < |profiles.keys| && profiles.keys[i] == n;
        assert keys[i + 1] == k;
      }
    }
  }

  lemma ListedSectionsWritten(profiles: Dict<Profile>, lastProfile: string, remember: bool)
    requires profiles.Valid()
    ensures forall i :: 0 <= i < 1 + |profiles.keys| ==>
      ([SettingsSection] + SectionNames(profiles.keys))[i] in WrittenSections(profiles.items, lastProfile, remember)
  {
    var keys := [SettingsSection] + SectionNames(profiles.keys);
    var items := WrittenSections(profiles.items, lastProfile, remember);
    forall i | 0 <= i < |keys| ensures keys[i] in items {
      if i > 0 {
        assert keys[i] == SectionName(profiles.keys[i - 1]);
      }
    }
  }

  /**
    `save_config` with interpolation switched off: `SETTINGS` first, then
    every profile in the order the profiles were created.
   */
  function Write(profiles: Dict<Profile>, lastProfile: string, remember: bool): (c: Config)
    requires profiles.Valid()
    ensures c.Valid()
    ensures c.keys == [SettingsSection] + SectionNames(profiles.keys)
    ensures SettingsSection in c.items && c.items[SettingsSection] == SettingsOf(lastProfile, remember)
    ensures forall n :: n in profiles.items ==>
      SectionName(n) in c.items && c.items[SectionName(n)] == ProfileSection(profiles.items[n])
    ensures forall s :: s in c.items && s != SettingsSection ==>
      exists n :: n in profiles.items && s == SectionName(n)
  {
    WrittenValid(profiles, lastProfile, remember);
    Dict([SettingsSection] + SectionNames(profiles.keys), WrittenSections(profiles.items, lastProfile, remember))
  }

  /** An option value as the INI reader returns it. */
  function ReadValue(raw: string): (v: string)
    ensures |v| <= |raw|
    ensures raw == Strip(raw) ==> v == raw
  {
    var v := Strip(raw);
    assert raw == Strip(raw) ==> v == raw;
    v
  }

  /** `section.get(key, '')`. */
  function OptionOr(sec: Section, key: string): string
  {
    if key in sec then ReadValue(sec[key]) else ""
  }

  /** `dict(config[section])` as used through `profile.get(key, '')`. */
  function ParseProfile(sec: Section): Profile
  {
    Profile(OptionOr(sec, NasUrlKey), OptionOr(sec, UsernameKey), OptionOr(sec, PasswordKey))
  }

  function StripProfile(p: Profile): Profile {
    Profile(ReadValue(p.nasUrl), ReadValue(p.username), ReadValue(p.password))
  }

  lemma ParseProfileSection(p: Profile)
    ensures ParseProfile(ProfileSection(p)) == StripProfile(p)
  {
  }

  /**
    `getboolean`: the accepted spellings in any letter case; any other
    value is an error (`None`). The case mapping is ASCII only, which is
    exact here: no other character lower-cases to a letter of these words.
   */
  function ParseBool(raw: string): (b: Option<bool>)
    ensures b == Some(true) <==> Lower(ReadValue(raw)) in {"1", "yes", "true", "on"}
    ensures b == Some(false) <==> Lower(ReadValue(raw)) in {"0", "no", "false", "off"}
  {
    match Lower(ReadValue(raw))
    case "1" => Some(true)
    case "yes" => Some(true)
    case "true" => Some(true)
    case "on" => Some(true)
    case "0" => Some(false)
    case "no" => Some(false)
    case "false" => Some(false)
    case "off" => Some(false)
    case _ => None
  }

  lemma ReadBoolText(b: bool)
    ensures ReadValue(BoolText(b)) == BoolText(b)
  {
    var t := BoolText(b);
    assert TrimLeft(t) == t by {
      assert !IsSpace(t[0]);
    }
    assert TrimRight(t) == t by {
      assert !IsSpace(t[|t| - 1]);
    }
  }

  lemma LowerBoolText(b: bool)
    ensures Lower(BoolText(b)) == (if b then "true" else "false")
  {
    var t, l := BoolText(b), Lower(BoolText(b));
    if b {
      assert l[0] == 't' && l[1] == 'r' && l[2] == 'u' && l[3] == 'e';
    } else {
      assert l[0] == 'f' && l[1] == 'a' && l[2] == 'l' && l[3] == 's' && l[4] == 'e';
    }
  }

  lemma ParseBoolText(b: bool)
    ensures ParseBool(BoolText(b)) == Some(b)
  {
    ReadBoolText(b);
    LowerBoolText(b);
  }

  /**
    The profile names of a file: the names of the sections starting with
    `PROFILE_`, without that prefix, in file order.
   */
  function ProfileNames(sectionNames: seq<string>): (r: seq<string>)
    ensures forall i :: 0 <= i < |r| ==> SectionName(r[i]) in sectionNames
    ensures Distinct(sectionNames) ==> Distinct(r)
    decreases |sectionNames|
  {
    if |sectionNames| == 0 then []
    else
      var init, last := sectionNames[..|sectionNames| - 1], sectionNames[|sectionNames| - 1];
      var rest := ProfileNames(init);
      assert sectionNames == init + [last];
      if StartsWith(last, ProfilePrefix) then
        var n := last[|ProfilePrefix|..];
        assert last == SectionName(n);
        assert Distinct(sectionNames) ==> n !in rest by {
          if Distinct(sectionNames) {
            assert last !in init;
            forall i | 0 <= i < |rest| ensures rest[i] != n {
              assert SectionName(rest[i]) in init;
            }
          }
        }
        rest + [n]
      else rest
  }

  /**
    The profiles of a file: for every section whose name starts with
    `PROFILE_`, the profile named by the rest of the section name.
   */
  function CollectProfiles(c: Config): (d: Dict<Profile>)
    requires c.Valid()
    ensures d.Valid()
    ensures d.keys == ProfileNames(c.keys)
    ensures forall n :: n in d.items ==> SectionName(n) in c.items && d.items[n] == ParseProfile(c.items[SectionName(n)])
  {
    var names := ProfileNames(c.keys);
    var items := map n | n in names :: ParseProfile(c.items[SectionName(n)]);
    Dict(names, items)
  }

  /** What `load_config` takes from a file before it changes anything. */
  datatype Loaded =
    | BadRememberFlag
    | Loaded(remember: Option<bool>, lastProfile: string, profiles: Dict<Profile>)

  /**
    Reading a file. Without a `SETTINGS` section the remember flag is left
    as it is (`None`) and there is no last profile; a missing flag reads as
    false; a flag that is not a boolean aborts the whole load.
   */
  function Read(c: Config): (r: Loaded)
    requires c.Valid()
    ensures r.BadRememberFlag? <==>
      SettingsSection in c.items && RememberKey in c.items[SettingsSection]
      && ParseBool(c.items[SettingsSection][RememberKey]).None?
    ensures r.Loaded? ==> r.profiles == CollectProfiles(c)
    ensures r.Loaded? && SettingsSection !in c.items ==> r.remember.None? && r.lastProfile == ""
    ensures r.Loaded? && SettingsSection in c.items ==>
      r.remember.Some? && r.lastProfile == OptionOr(c.items[SettingsSection], LastProfileKey)
  {
    var profiles := CollectProfiles(c);
    if SettingsSection in c.items then
      var st := c.items[SettingsSection];
      var flag := if RememberKey in st then ParseBool(st[RememberKey]) else Some(false);
      if flag.None? then BadRememberFlag
      else Loaded(Some(flag.value), OptionOr(st, LastProfileKey), profiles)
    else Loaded(None, "", profiles)
  }

  lemma ProfileNamesAppend(names: seq<string>, s: string)
    ensures ProfileNames(names + [s]) ==
      ProfileNames(names) + (if StartsWith(s, ProfilePrefix) then [s[|ProfilePrefix|..]] else [])
  {
    assert (names + [s])[..|names|] == names;
  }

  lemma SectionNamesAppend(names: seq<string>, n: string)
    ensures [SettingsSection] + SectionNames(names + [n]) == [SettingsSection] + SectionNames(names) + [SectionName(n)]
  {
  }

  lemma ProfileNamesOfSettings()
    ensures ProfileNames([SettingsSection] + SectionNames([])) == []
  {
    SettingsIsNoProfileSection();
    ProfileNamesAppend([], SettingsSection);
  }

  lemma ProfileNamesStep(names: seq<string>, n: string)
    requires ProfileNames([SettingsSection] + SectionNames(names)) == names
    ensures ProfileNames([SettingsSection] + SectionNames(names) + [SectionName(n)]) == names + [n]
  {
    ProfileNamesAppend([SettingsSection] + SectionNames(names), SectionName(n));
  }

  /** Reading the section names back gives the profile names written, in order. */
  lemma {:induction false} ProfileNamesWritten(ks: seq<string>)
    ensures ProfileNames([SettingsSection] + SectionNames(ks)) == ks
    decreases |ks|
  {
    if |ks| == 0 {
      ProfileNamesOfSettings();
    } else {
      var init, k := ks[..|ks| - 1], ks[|ks| - 1];
      assert init + [k] == ks;
      ProfileNamesWritten(init);
      SectionNamesAppend(init, k);
      ProfileNamesStep(init, k);
    }
  }

  /** `loaded` holds the profiles of `profiles` in the same order, each value trimmed. */
  ghost predicate SameProfilesTrimmed(loaded: Dict<Profile>, profiles: Dict<Profile>) {
    && loaded.keys == profiles.keys
    && (forall n :: n in loaded.items <==> n in profiles.items)
    && (forall n :: n in loaded.items ==> loaded.items[n] == StripProfile(profiles.items[n]))
  }

  lemma CollectWritten(profiles: Dict<Profile>, lastProfile: string, remember: bool)
    requires profiles.Valid()
    ensures SameProfilesTrimmed(CollectProfiles(Write(profiles, lastProfile, remember)), profiles)
  {
    var c := Write(profiles, lastProfile, remember);
    ProfileNamesWritten(profiles.keys);
    var d := CollectProfiles(c);
    forall n ensures n in d.items <==> n in profiles.items {
      assert n in d.items <==> n in d.keys;
    }
    forall n | n in d.items ensures d.items[n] == StripProfile(profiles.items[n]) {
      ParseProfileSection(profiles.items[n]);
    }
  }

  /**
    The round trip of the configuration file: reading what was written
    gives back the remember flag, the last profile and every profile in
    order, each value trimmed as the INI reader trims it.
   */
  lemma WriteThenRead(profiles: Dict<Profile>, lastProfile: string, remember: bool)
    requires profiles.Valid()
    ensures var r := Read(Write(profiles, lastProfile, remember));
      && r.Loaded?
      && r.remember == Some(remember)
      && r.lastProfile == ReadValue(lastProfile)
      && SameProfilesTrimmed(r.profiles, profiles)
  {
    ParseBoolText(remember);
    CollectWritten(profiles, lastProfile, remember);
  }

  // ---------------------------------------------------------------------
  // The file as the source writes it: ConfigParser's default interpolation
  // ---------------------------------------------------------------------

  /** `s.replace('%%', '')`: escaped percent signs removed, left to right. */
  function DropEscapedPercents(s: string): (r: string)
    ensures forall i :: 0 <= i < |r| ==> r[i] in s
    decreases |s|
  {
    if |s| == 0 then []
    else if |s| >= 2 && s[0] == '%' && s[1] == '%' then DropEscapedPercents(s[2..])
    else [s[0]] + DropEscapedPercents(s[1..])
  }

  /** The first index at or after `from` holding `c`. */
  function IndexFrom(s: string, c: char, from: nat): (r: Option<nat>)
    ensures r.Some? ==> from <= r.value < |s| && s[r.value] == c
    ensures r.Some? ==> forall j :: from <= j < r.value ==> s[j] != c
    ensures r.None? ==> forall j :: from <= j < |s| ==> s[j] != c
    decreases |s| - from
  {
    if from >= |s| then None
    else if s[from] == c then Some(from)
    else IndexFrom(s, c, from + 1)
  }

  /** `re.sub(r"%\(([^)]+)\)s", '', s)`: well-formed references removed. */
  function DropReferences(s: string): (r: string)
    ensures forall i :: 0 <= i < |r| ==> r[i] in s
    decreases |s|
  {
    if |s| == 0 then []
    else
      var close := IndexFrom(s, ')', 2);
      if |s| >= 2 && s[0] == '%' && s[1] == '(' && close.Some? && close.value >= 3
         && close.value + 1 < |s| && s[close.value + 1] == 's'
      then DropReferences(s[close.value + 2..])
      else [s[0]] + DropReferences(s[1..])
  }

  /**
    The check `BasicInterpolation.before_set` makes on every value put into
    the parser: a `%` that is neither `%%` nor part of `%(name)s` is an error.
   */
  predicate InterpolationAccepts(v: string) {
    '%' !in DropReferences(DropEscapedPercents(v))
  }

  lemma NoPercentAccepted(v: string)
    requires '%' !in v
    ensures InterpolationAccepts(v)
  {
  }

  lemma LonePercentRejected()
    ensures !InterpolationAccepts("50%")
  {
    assert DropEscapedPercents("%") == "%";
    assert DropEscapedPercents("0%") == "0%";
    assert DropEscapedPercents("50%") == "50%";
    assert DropReferences("%") == "%";
    assert DropReferences("0%") == "0%";
    assert DropReferences("50%") == "50%";
  }

  predicate AllValuesAccepted(c: Config) {
    forall s, k :: s in c.items && k in c.items[s] ==> InterpolationAccepts(c.items[s][k])
  }

  /**
    `save_config` as written: the default parser refuses a value with a
    lone `%`, the exception is swallowed and nothing is written (`None`:
    the file keeps its previous contents).
   */
  function WriteAsWritten(profiles: Dict<Profile>, lastProfile: string, remember: bool): (r: Option<Config>)
    requires profiles.Valid()
    ensures r.Some? <==> AllValuesAccepted(Write(profiles, lastProfile, remember))
    ensures r.Some? ==> r.value == Write(profiles, lastProfile, remember)
  {
    var c := Write(profiles, lastProfile, remember);
    if AllValuesAccepted(c) then Some(c) else None
  }

  /** Selecting a profile named "50%" stops every save of the configuration. */
  lemma PercentNameBlocksWrite(profiles: Dict<Profile>, remember: bool)
    requires profiles.Valid()
    ensures WriteAsWritten(profiles, "50%", remember) == None
  {
    var c := Write(profiles, "50%", remember);
    assert c.items[SettingsSection][LastProfileKey] == "50%";
    LonePercentRejected();
  }

  predicate NoPercentIn(sec: Section) {
    forall k :: k in sec ==> '%' !in sec[k]
  }

  lemma SectionAccepted(sec: Section)
    requires NoPercentIn(sec)
    ensures forall k :: k in sec ==> InterpolationAccepts(sec[k])
  {
    forall k | k in sec ensures InterpolationAccepts(sec[k]) {
      NoPercentAccepted(sec[k]);
    }
  }

  lemma SettingsWithoutPercent(lastProfile: string, remember: bool)
    requires '%' !in lastProfile
    ensures NoPercentIn(SettingsOf(lastProfile, remember))
  {
    assert '%' !in BoolText(remember);
  }

  lemma ProfileWithoutPercent(p: Profile)
    requires '%' !in p.nasUrl && '%' !in p.username && '%' !in p.password
    ensures NoPercentIn(ProfileSection(p))
  {
  }

  /** Without any `%` in the profiles and the last profile, both writers agree. */
  lemma WritersAgreeWithoutPercent(profiles: Dict<Profile>, lastProfile: string, remember: bool)
    requires profiles.Valid()
    requires '%' !in lastProfile
    requires forall n :: n in profiles.items ==>
      '%' !in profiles.items[n].nasUrl && '%' !in profiles.items[n].username && '%' !in profiles.items[n].password
    ensures WriteAsWritten(profiles, lastProfile, remember) == Some(Write(profiles, lastProfile, remember))
  {
    var c := Write(profiles, lastProfile, remember);
    forall s | s in c.items ensures NoPercentIn(c.items[s]) {
      if s == SettingsSection {
        SettingsWithoutPercent(lastProfile, remember);
      } else {
        var n :| n in profiles.items && s == SectionName(n);
        ProfileWithoutPercent(profiles.items[n]);
      }
    }
    forall s | s in c.items ensures forall k :: k in c.items[s] ==> InterpolationAccepts(c.items[s][k]) {
      SectionAccepted(c.items[s]);
    }
  }
}

=== FILE: dicts.dfy ===
/**
  Python dictionaries keyed by strings. A Python `dict` remembers insertion
  order, and the client shows its profiles in that order, so a dictionary is
  modelled as the sequence of its keys in insertion order together with the
  key-to-value map.
 */
module Dicts {

  predicate Distinct(s: seq<string>) {
    forall i, j :: 0 <= i < j < |s| ==> s[i] != s[j]
  }

  datatype Dict<V> = Dict(keys: seq<string>, items: map<string, V>) {

    /** Every key appears once in the order, and the order lists exactly the keys. */
    predicate Valid() {
      && Distinct(keys)
      && (forall k :: k in items ==> k in keys)
      && (forall i :: 0 <= i < |keys| ==> keys[i] in items)
    }

    predicate IsEmpty() {
      |keys| == 0
    }
  }

  function Empty<V>(): (d: Dict<V>)
    ensures d.Valid() && d.IsEmpty() && d.items == map[]
  {
    Dict([], map[])
  }

  /** `d[k] = v`: an existing key keeps its place, a new key goes last. */
  function Put<V>(d: Dict<V>, k: string, v: V): (r: Dict<V>)
    requires d.Valid()
    ensures r.Valid()
    ensures r.items == d.items[k := v]
    ensures k in d.items ==> r.keys == d.keys
    ensures k !in d.items ==> r.keys == d.keys + [k]
  {
    if k in d.items then Dict(d.keys, d.items[k := v]) else Dict(d.keys + [k], d.items[k := v])
  }

  /** `s` with the element `k` taken out, the rest in their order. */
  function Without(s: seq<string>, k: string): (r: seq<string>)
    ensures k !in r
    ensures forall x :: x in r <==> x in s && x != k
    ensures Distinct(s) ==> Distinct(r)
    ensures k !in s ==> r == s
  {
    if |s| == 0 then []
    else if s[0] == k then Without(s[1..], k)
    else
      var rest := Without(s[1..], k);
      assert Distinct(s) ==> Distinct([s[0]] + rest) by {
        if Distinct(s) {
          assert s[0] !in s[1..];
        }
      }
      [s[0]] + rest
  }

  /** `del d[k]` (when present): only the entry for `k` disappears. */
  function Remove<V>(d: Dict<V>, k: string): (r: Dict<V>)
    requires d.Valid()
    ensures r.Valid()
    ensures r.items == d.items - {k}
    ensures r.keys == Without(d.keys, k)
  {
    var ks := Without(d.keys, k);
    forall i | 0 <= i < |ks|
      ensures ks[i] in d.items - {k}
    {
      assert ks[i] in ks;
      var j :| 0 <= j < |d.keys| && d.keys[j] == ks[i];
    }
    Dict(ks, d.items - {k})
  }

  lemma EmptyIffNoItems<V>(d: Dict<V>)
    requires d.Valid()
    ensures d.IsEmpty() <==> d.items == map[]
  {
    if !d.IsEmpty() {
      assert d.keys[0] in d.items;
    }
  }
}

=== FILE: filesize.dfy ===
/**
  `format_file_size`: a byte count shown as a number with one decimal and a
  unit among B, KB, MB, GB and TB.

  The source divides a float by 1024.0 while the value is at least 1024 and
  the unit is not yet TB, then prints it with `:.1f`. Dividing by a power of
  two is exact, so after `i` divisions the value is exactly n / 1024^i; it is
  kept here as that fraction. `:.1f` rounds the exact value to the nearest
  tenth with ties going to the even tenth, which `RoundHalfEven` computes on
  integers.
 */
module FileSize {

  import opened Text

  const Units: seq<string> := ["B", "KB", "MB", "GB", "TB"]

  function Pow1024(i: nat): (p: nat)
    ensures p >= 1
  {
    if i == 0 then 1 else 1024 * Pow1024(i - 1)
  }

  lemma {:induction false} Pow1024Monotone(i: nat, j: nat)
    requires i <= j
    ensures Pow1024(i) <= Pow1024(j)
  {
    if i < j {
      Pow1024Monotone(i, j - 1);
    }
  }

  /**
    The unit a positive size is shown in: the largest power of 1024 not
    above `n`, capped at TB.
   */
  ghost predicate IsUnitIndex(n: int, i: nat) {
    && i < |Units|
    && Pow1024(i) <= n
    && (i == |Units| - 1 || n < Pow1024(i + 1))
  }

  lemma UnitIndexUnique(n: int, i: nat, j: nat)
    requires IsUnitIndex(n, i) && IsUnitIndex(n, j)
    ensures i == j
  {
    if i < j {
      Pow1024Monotone(i + 1, j);
    } else if j < i {
      Pow1024Monotone(j + 1, i);
    }
  }

  /**
    The division loop, from unit `i` on, with the current value n / 1024^i
    kept as a fraction: it is at least 1024 exactly when n >= 1024 * 1024^i.
   */
  function ScaleFrom(n: nat, i: nat): (r: nat)
    requires i < |Units| && Pow1024(i) <= n
    ensures IsUnitIndex(n, r)
    decreases |Units| - i
  {
    if n >= 1024 * Pow1024(i) && i < |Units| - 1 then ScaleFrom(n, i + 1) else i
  }

  function Abs(x: int): nat {
    if x < 0 then -x else x
  }

  /** `q` is a / b rounded to the nearest integer, a tie going to the even one. */
  ghost predicate IsRoundedQuotient(a: int, b: int, q: int) {
    || 2 * Abs(q * b - a) < b
    || (2 * Abs(q * b - a) == b && q % 2 == 0)
  }

  function RoundHalfEven(a: nat, b: nat): (q: nat)
    requires b >= 1
    ensures IsRoundedQuotient(a, b, q)
  {
    var q0 := a / b;
    var r := a % b;
    assert q0 * b - a == -r;
    assert (q0 + 1) * b - a == b - r;
    if 2 * r < b then q0
    else if 2 * r > b then q0 + 1
    else if q0 % 2 == 0 then q0
    else q0 + 1
  }

  lemma MulAtLeastTwice(k: int, b: int)
    requires k >= 2 && b >= 1
    ensures k * b >= 2 * b
  {
  }

  lemma MulAtMostMinus(k: int, b: int)
    requires k <= -1 && b >= 1
    ensures k * b <= -b
  {
  }

  /** Every correctly rounded quotient is the one `RoundHalfEven` computes. */
  lemma RoundedQuotientIsRoundHalfEven(a: nat, b: nat, q: int)
    requires b >= 1
    requires IsRoundedQuotient(a, b, q)
    ensures q == RoundHalfEven(a, b)
  {
    var q0, r := a / b, a % b;
    var e := q - q0;
    assert q * b - a == e * b - r by {
      assert q * b == q0 * b + e * b;
    }
    if e >= 2 {
      MulAtLeastTwice(e, b);
      assert false;
    }
    if e <= -1 {
      MulAtMostMinus(e, b);
      assert false;
    }
    if e == 0 {
      assert q * b - a == -r;
    } else {
      assert q * b - a == b - r;
    }
  }

  lemma RoundedQuotientUnique(a: nat, b: nat, q1: int, q2: int)
    requires b >= 1
    requires IsRoundedQuotient(a, b, q1) && IsRoundedQuotient(a, b, q2)
    ensures q1 == q2
  {
    RoundedQuotientIsRoundHalfEven(a, b, q1);
    RoundedQuotientIsRoundHalfEven(a, b, q2);
  }

  /** What is printed for a non-zero size: sign, value in tenths, unit. */
  datatype SizeText = SizeText(negative: bool, tenths: nat, unit: nat)

  function Render(d: SizeText): string
    requires d.unit < |Units|
  {
    (if d.negative then "-" else "")
    + NatToString(d.tenths / 10) + "." + [DigitChar(d.tenths % 10)]
    + " " + Units[d.unit]
  }

  /**
    The printed parts of a non-zero size. A negative size never enters the
    loop and is printed in bytes.
   */
  function Shown(n: int): (d: SizeText)
    requires n != 0
    ensures d.unit < |Units|
    ensures n >= 1 ==> !d.negative && IsUnitIndex(n, d.unit)
    ensures n >= 1 ==> IsRoundedQuotient(10 * n, Pow1024(d.unit), d.tenths)
    ensures n < 0 ==> d.negative && d.unit == 0 && d.tenths == 10 * -n
  {
    if n < 0 then SizeText(true, 10 * -n, 0)
    else
      var i := ScaleFrom(n, 0);
      SizeText(false, RoundHalfEven(10 * n, Pow1024(i)), i)
  }

  function FormatFileSize(n: int): (s: string)
    ensures n == 0 ==> s == "0 B"
    ensures s != ""
  {
    if n == 0 then "0 B" else Render(Shown(n))
  }

  /**
    For every positive size, the text is fixed by the unit rule and the
    rounding rule alone: any unit index and any correctly rounded number of
    tenths give exactly the printed text.
   */
  lemma FormatFileSizeSpec(n: int, i: nat, tenths: nat)
    requires n >= 1
    requires IsUnitIndex(n, i)
    requires IsRoundedQuotient(10 * n, Pow1024(i), tenths)
    ensures FormatFileSize(n) == Render(SizeText(false, tenths, i))
  {
    var d := Shown(n);
    UnitIndexUnique(n, i, d.unit);
    RoundedQuotientUnique(10 * n, Pow1024(i), tenths, d.tenths);
  }

  lemma FormatFileSizeOf1536()
    ensures FormatFileSize(1536) == "1.5 KB"
  {
    assert Pow1024(1) == 1024 && Pow1024(2) == 1048576;
    FormatFileSizeSpec(1536, 1, 15);
  }

  lemma FormatFileSizeOf1GiB()
    ensures FormatFileSize(1073741824) == "1.0 GB"
  {
    assert Pow1024(3) == 1073741824 && Pow1024(4) == 1099511627776;
    FormatFileSizeSpec(1073741824, 3, 10);
  }

  /** 1280 bytes is 1.25 KB, a tie, printed with the even tenth. */
  lemma FormatFileSizeOf1280()
    ensures FormatFileSize(1280) == "1.2 KB"
  {
    assert Pow1024(1) == 1024 && Pow1024(2) == 1048576;
    FormatFileSizeSpec(1280, 1, 12);
  }

  /** One byte short of a MiB stays in KB and rounds up to 1024.0. */
  lemma FormatFileSizeOf1MiBMinusOne()
    ensures FormatFileSize(1048575) == "1024.0 KB"
  {
    assert Pow1024(1) == 1024 && Pow1024(2) == 1048576;
    assert IsRoundedQuotient(10485750, 1024, 10240) by {
      assert 10240 * 1024 - 10485750 == 10;
    }
    FormatFileSizeSpec(1048575, 1, 10240);
    RenderOf1024KB();
  }

  lemma RenderOf1024KB()
    ensures Render(SizeText(false, 10240, 1)) == "1024.0 KB"
  {
    assert NatToString(102) == "102";
    assert NatToString(1024) == "1024";
  }

  lemma FormatFileSizeOfNegative()
    ensures FormatFileSize(-5) == "-5.0 B"
  {
  }
}

=== FILE: filetypes.dfy ===
/**
  File-type helpers of the file list: the extension of a name with the
  semantics of Python's `os.path.splitext`, the type text shown in the list
  (`get_file_type_display`), and the image and video tests that decide which
  files can be previewed (`is_image_file`, `is_video_file`).
 */
module FileTypes {

  import opened Wrappers
  import opened Text

  /** Index of the last `c` among the first `n` characters of `s`, or -1. */
  function LastIndexBefore(s: string, c: char, n: nat): (r: int)
    requires n <= |s|
    ensures -1 <= r < n
    ensures r >= 0 ==> s[r] == c
    ensures forall j :: r < j < n ==> s[j] != c
  {
    if n == 0 then -1
    else if s[n - 1] == c then n - 1
    else LastIndexBefore(s, c, n - 1)
  }

  /** Python's `s.rfind(c)`. */
  function RFind(s: string, c: char): (r: int)
    ensures -1 <= r < |s|
    ensures r >= 0 ==> s[r] == c
    ensures forall j :: r < j < |s| ==> s[j] != c
  {
    LastIndexBefore(s, c, |s|)
  }

  predicate DotsOnly(p: string, lo: int, hi: int)
    requires 0 <= lo <= hi <= |p|
  {
    forall i :: lo <= i < hi ==> p[i] == '.'
  }

  /**
    `os.path.splitext(p)` with `/` as separator: the suffix from the last dot
    is the extension when that dot lies in the last path component and some
    character of that component before it is not a dot; otherwise there is
    no extension.
   */
  function SplitExt(p: string): (r: (string, string))
    ensures r.0 + r.1 == p
    ensures r.1 == [] || r.1[0] == '.'
    ensures forall i :: 1 <= i < |r.1| ==> r.1[i] != '.' && r.1[i] != '/'
  {
    var sep := RFind(p, '/');
    var dot := RFind(p, '.');
    if dot > sep && !DotsOnly(p, sep + 1, dot) then
      TailAfterLastDot(p, sep, dot);
      (p[..dot], p[dot..])
    else
      (p, [])
  }

  function Extension(p: string): string {
    SplitExt(p).1
  }

  lemma TailAfterLastDot(p: string, sep: int, dot: int)
    requires -1 <= sep < dot < |p|
    requires p[dot] == '.'
    requires forall j :: sep < j < |p| ==> p[j] != '/'
    requires forall j :: dot < j < |p| ==> p[j] != '.'
    ensures p[..dot] + p[dot..] == p
    ensures forall i :: 1 <= i < |p[dot..]| ==> p[dot..][i] != '.' && p[dot..][i] != '/'
  {
    var ext := p[dot..];
    forall i | 1 <= i < |ext|
      ensures ext[i] != '.' && ext[i] != '/'
    {
      assert ext[i] == p[dot + i];
    }
  }

  predicate NoSlashFrom(p: string, i: nat) {
    forall k :: i <= k < |p| ==> p[k] != '/'
  }

  /**
    A name has an extension when some dot is preceded, within the last path
    component, by a character that is not a dot.
   */
  ghost predicate HasExtension(p: string) {
    exists i, j :: 0 <= i < j < |p| && p[i] != '.' && p[j] == '.' && NoSlashFrom(p, i)
  }

  lemma ExtensionCharacterised(p: string)
    ensures Extension(p) != [] <==> HasExtension(p)
  {
    var sep := RFind(p, '/');
    var dot := RFind(p, '.');
    if Extension(p) != [] {
      var k :| sep + 1 <= k < dot && p[k] != '.';
      assert NoSlashFrom(p, k);
    }
    if HasExtension(p) {
      var i, j :| 0 <= i < j < |p| && p[i] != '.' && p[j] == '.' && NoSlashFrom(p, i);
      assert j <= dot;
      assert sep < i;
      assert !DotsOnly(p, sep + 1, dot);
    }
  }

  lemma RFindIsLast(s: string, c: char, k: int)
    requires 0 <= k < |s| && s[k] == c
    requires forall j :: k < j < |s| ==> s[j] != c
    ensures RFind(s, c) == k
  {
  }

  lemma RFindAbsent(s: string, c: char)
    requires forall j :: 0 <= j < |s| ==> s[j] != c
    ensures RFind(s, c) == -1
  {
  }

  /**
    A name made of a stem without slashes that has some character other
    than a dot, followed by a dot and a suffix with neither dots nor slashes,
    has that dotted suffix as its extension.
   */
  lemma ExtensionOfStemAndSuffix(stem: string, suffix: string, k: nat)
    requires forall i :: 0 <= i < |stem| ==> stem[i] != '/'
    requires k < |stem| && stem[k] != '.'
    requires forall i :: 0 <= i < |suffix| ==> suffix[i] != '.' && suffix[i] != '/'
    ensures Extension(stem + "." + suffix) == "." + suffix
  {
    var p := stem + "." + suffix;
    assert p[|stem|] == '.';
    assert forall j :: |stem| < j < |p| ==> p[j] == suffix[j - |stem| - 1];
    RFindIsLast(p, '.', |stem|);
    RFindAbsent(p, '/');
    assert p[k] != '.';
    assert !DotsOnly(p, 0, |stem|);
    assert p[|stem|..] == "." + suffix;
  }

  /** A name with no dot after its first character has no extension. */
  lemma NoExtensionWithoutInnerDot(p: string)
    requires forall j :: 0 < j < |p| ==> p[j] != '.'
    ensures Extension(p) == []
  {
  }

  /** The lowercased extension, dot included, as every caller uses it. */
  function LowerExt(name: string): string {
    Lower(Extension(name))
  }

  const FolderLabel := "[文件夹]"
  const UnknownLabel := "[文件] 未知"
  const OtherPrefix := "[文件] "


  /**
    The extension table of `get_file_type_display`, keyed by lowercased
    extension; `None` for an extension the table does not list. The entries
    are grouped by the letter after the dot, so that a lookup compares the
    extension only with the entries of its own group.
   */
  function TypeLabel(ext: string): Option<string> {
    if |ext| < 2 || ext[0] != '.' then None
    else match ext[1]
      case '7' => (match ext
        case ".7z" => Some("[压缩] 7Z")
        case _ => None)
      case 'a' => (match ext
        case ".aac" => Some("[音频] AAC")
        case ".avi" => Some("[视频] AVI")
        case ".app" => Some("[应用] APP")
        case _ => None)
      case 'b' => (match ext
        case ".bmp" => Some("[图片] BMP")
        case ".bat" => Some("[脚本] BAT")
        case ".bz2" => Some("[压缩] BZ2")
        case _ => None)
      case 'c' => (match ext
        case ".css" => Some("[样式] CSS")
        case ".cpp" => Some("[代码] C++")
        case ".c" => Some("[代码] C")
        case ".cs" => Some("[代码] C#")
        case ".conf" => Some("[配置] CONF")
        case ".cfg" => Some("[配置] CFG")
        case ".csv" => Some("[数据] CSV")
        case _ => None)
      case 'd' => (match ext
        case ".doc" => Some("[Word] DOC")
        case ".docx" => Some("[Word] DOCX")
        case ".deb" => Some("[安装] DEB")
        case ".dmg" => Some("[安装] DMG")
        case ".db" => Some("[数据库] DB")
        case _ => None)
      case 'e' => (match ext
        case ".exe" => Some("[程序] EXE")
        case _ => None)
      case 'f' => (match ext
        case ".flac" => Some("[音频] FLAC")
        case ".flv" => Some("[视频] FLV")
        case _ => None)
      case 'g' => (match ext
        case ".gif" => Some("[图片] GIF")
        case ".gz" => Some("[压缩] GZ")
        case _ => None)
      case 'h' => (match ext
        case ".html" => Some("[网页] HTML")
        case ".htm" => Some("[网页] HTM")
        case _ => None)
      case 'i' => (match ext
        case ".ico" => Some("[图片] ICO")
        case ".ini" => Some("[配置] INI")
        case ".iso" => Some("[镜像] ISO")
        case _ => None)
      case 'j' => (match ext
        case ".jpg" => Some("[图片] JPG")
        case ".jpeg" => Some("[图片] JPEG")
        case ".js" => Some("[代码] JavaScript")
        case ".java" => Some("[代码] Java")
        case ".json" => Some("[数据] JSON")
        case _ => None)
      case 'l' => (match ext
        case ".log" => Some("[日志] LOG")
        case _ => None)
      case 'm' => (match ext
        case ".mp3" => Some("[音频] MP3")
        case ".mp4" => Some("[视频] MP4")
        case ".mkv" => Some("[视频] MKV")
        case ".mov" => Some("[视频] MOV")
        case ".m4v" => Some("[视频] M4V")
        case ".msi" => Some("[安装] MSI")
        case ".mdb" => Some("[数据库] MDB")
        case ".md" => Some("[文档] Markdown")
        case _ => None)
      case 'o' => (match ext
        case ".odt" => Some("[文档] ODT")
        case ".ods" => Some("[表格] ODS")
        case ".odp" => Some("[演示] ODP")
        case ".ogg" => Some("[音频] OGG")
        case ".otf" => Some("[字体] OTF")
        case _ => None)
      case 'p' => (match ext
        case ".png" => Some("[图片] PNG")
        case ".pdf" => Some("[PDF] PDF")
        case ".ppt" => Some("[PPT] PPT")
        case ".pptx" => Some("[PPT] PPTX")
        case ".py" => Some("[代码] Python")
        case ".php" => Some("[代码] PHP")
        case ".ps1" => Some("[脚本] PowerShell")
        case _ => None)
      case 'r' => (match ext
        case ".rtf" => Some("[文本] RTF")
        case ".rar" => Some("[压缩] RAR")
        case ".rpm" => Some("[安装] RPM")
        case _ => None)
      case 's' => (match ext
        case ".svg" => Some("[图片] SVG")
        case ".sql" => Some("[数据库] SQL")
        case ".sh" => Some("[脚本] Shell")
        case ".sqlite" => Some("[数据库] SQLite")
        case _ => None)
      case 't' => (match ext
        case ".txt" => Some("[文本] TXT")
        case ".tar" => Some("[压缩] TAR")
        case ".toml" => Some("[配置] TOML")
        case ".ttf" => Some("[字体] TTF")
        case _ => None)
      case 'w' => (match ext
        case ".webp" => Some("[图片] WebP")
        case ".wav" => Some("[音频] WAV")
        case ".wma" => Some("[音频] WMA")
        case ".wmv" => Some("[视频] WMV")
        case ".webm" => Some("[视频] WebM")
        case ".woff" => Some("[字体] WOFF")
        case ".woff2" => Some("[字体] WOFF2")
        case _ => None)
      case 'x' => (match ext
        case ".xls" => Some("[Excel] XLS")
        case ".xlsx" => Some("[Excel] XLSX")
        case ".xml" => Some("[数据] XML")
        case ".xz" => Some("[压缩] XZ")
        case _ => None)
      case 'y' => (match ext
        case ".yaml" => Some("[配置] YAML")
        case ".yml" => Some("[配置] YML")
        case _ => None)
      case 'z' => (match ext
        case ".zip" => Some("[压缩] ZIP")
        case _ => None)
      case _ => None
  }

  /**
    `get_file_type_display(filename, is_dir)`: folders are labelled as such;
    a file is labelled by the table entry of its lowercased extension, by the
    extension in capitals when the table has no entry, or as unknown when it
    has no extension.
   */
  function FileTypeDisplay(name: string, isDir: bool): (r: string)
    ensures isDir ==> r == FolderLabel
    ensures !isDir && TypeLabel(LowerExt(name)).Some? ==> r == TypeLabel(LowerExt(name)).value
    ensures !isDir && TypeLabel(LowerExt(name)).None? && LowerExt(name) != [] ==>
              r == OtherPrefix + Upper(Extension(name)[1..])
    ensures !isDir && Extension(name) == [] ==> r == UnknownLabel
  {
    if isDir then FolderLabel
    else
      var ext := LowerExt(name);
      if TypeLabel(ext).Some? then TypeLabel(ext).value
      else if ext != [] then
        UpperAfterFirst(Extension(name));
        OtherPrefix + Upper(ext[1..])
      else UnknownLabel
  }

  /** Past its first character, a lowered text reads the same in capitals. */
  lemma UpperAfterFirst(e: string)
    requires |e| >= 1
    ensures Upper(Lower(e)[1..]) == Upper(e[1..])
  {
    assert Lower(e)[1..] == Lower(e[1..]);
    UpperIgnoresLower(e[1..]);
  }

  const ImageExtensions: set<string> :=
    {".png", ".jpg", ".jpeg", ".gif", ".bmp", ".svg", ".webp", ".ico", ".tiff", ".tif"}

  const VideoExtensions: set<string> :=
    {".mp4", ".avi", ".mov", ".mkv", ".wmv", ".flv", ".webm", ".m4v", ".3gp", ".rmvb", ".mpg", ".mpeg"}

  /** `is_image_file`: the explicit guard for "" agrees with the extension test. */
  function IsImageFile(name: string): (r: bool)
    ensures r <==> LowerExt(name) in ImageExtensions
  {
    assert LowerExt([]) == [];
    if name == [] then false else LowerExt(name) in ImageExtensions
  }

  /** `is_video_file`. */
  function IsVideoFile(name: string): (r: bool)
    ensures r <==> LowerExt(name) in VideoExtensions
  {
    assert LowerExt([]) == [];
    if name == [] then false else LowerExt(name) in VideoExtensions
  }

  lemma ImageAndVideoExtensionsDisjoint()
    ensures ImageExtensions !! VideoExtensions
  {
  }

  lemma ImageVideoDisjoint(name: string)
    ensures !(IsImageFile(name) && IsVideoFile(name))
  {
    ImageAndVideoExtensionsDisjoint();
  }

  lemma TypeLabelOfImages(ext: string)
    requires ext in ImageExtensions && ext != ".tiff" && ext != ".tif"
    ensures TypeLabel(ext).Some? && StartsWith(TypeLabel(ext).value, "[图片]")
  {
  }

  lemma TypeLabelOfVideos(ext: string)
    requires ext in VideoExtensions && TypeLabel(ext).Some?
    ensures StartsWith(TypeLabel(ext).value, "[视频]")
  {
  }

  /** Every image the previewer accepts is labelled as an image, except TIFF. */
  lemma ImagesDisplayAsImages(name: string)
    requires IsImageFile(name)
    requires LowerExt(name) != ".tiff" && LowerExt(name) != ".tif"
    ensures StartsWith(FileTypeDisplay(name, false), "[图片]")
  {
    TypeLabelOfImages(LowerExt(name));
  }

  /** TIFF images can be previewed but the table has no entry for them. */
  lemma TiffDisplaysAsOther(name: string)
    requires LowerExt(name) == ".tiff"
    ensures IsImageFile(name)
    ensures FileTypeDisplay(name, false) == "[文件] TIFF"
  {
    TiffIsImage(name);
    TiffDisplay(name);
  }

  lemma TiffIsImage(name: string)
    requires LowerExt(name) == ".tiff"
    ensures IsImageFile(name)
  {
  }

  lemma TiffDisplay(name: string)
    requires LowerExt(name) == ".tiff"
    ensures FileTypeDisplay(name, false) == "[文件] TIFF"
  {
    var e := Extension(name);
    TiffUnlisted();
    assert TypeLabel(LowerExt(name)).None?;
    TiffSuffixInCapitals(e);
    assert OtherPrefix + Upper(e[1..]) == "[文件] TIFF";
  }

  lemma TiffUnlisted()
    ensures TypeLabel(".tiff").None?
  {
  }

  /** Any spelling of ".tiff" shows its suffix as "TIFF". */
  lemma TiffSuffixInCapitals(e: string)
    requires Lower(e) == ".tiff"
    ensures |e| == 5 && Upper(e[1..]) == "TIFF"
  {
    assert Lower(e[1..]) == "tiff" by {
      assert Lower(e)[1..] == "tiff";
    }
    UpperIgnoresLower(e[1..]);
    assert Upper("tiff") == "TIFF";
  }

  /** Every video with a table entry is labelled as a video. */
  lemma VideosDisplayAsVideos(name: string)
    requires IsVideoFile(name)
    requires TypeLabel(LowerExt(name)).Some?
    ensures StartsWith(FileTypeDisplay(name, false), "[视频]")
  {
    TypeLabelOfVideos(LowerExt(name));
  }

  lemma DisplayOfPhoto()
    ensures FileTypeDisplay("photo.JPG", false) == "[图片] JPG"
  {
    ExtensionOfStemAndSuffix("photo", "JPG", 0);
    assert "photo" + "." + "JPG" == "photo.JPG";
    assert Lower(".JPG") == ".jpg";
    assert TypeLabel(".jpg") == Some("[图片] JPG");
  }

  /** Only the last suffix counts. */
  lemma DisplayOfDoubleSuffix()
    ensures FileTypeDisplay("backup.tar.gz", false) == "[压缩] GZ"
  {
    ExtensionOfStemAndSuffix("backup.tar", "gz", 0);
    assert "backup.tar" + "." + "gz" == "backup.tar.gz";
    assert Lower(".gz") == ".gz";
    assert TypeLabel(".gz") == Some("[压缩] GZ");
  }

  /** A leading dot does not start an extension. */
  lemma DisplayOfDotFile()
    ensures FileTypeDisplay(".bashrc", false) == UnknownLabel
  {
    NoExtensionWithoutInnerDot(".bashrc");
  }

  lemma DisplayOfUnlistedExtension()
    ensures FileTypeDisplay("notes.xyz", false) == "[文件] XYZ"
  {
    ExtensionOfStemAndSuffix("notes", "xyz", 0);
    assert "notes" + "." + "xyz" == "notes.xyz";
    assert Lower(".xyz") == ".xyz";
    assert TypeLabel(".xyz") == None;
    assert Upper("xyz") == "XYZ";
  }

  /**
    The folder test of the file list as written: a row counts as a folder
    when its type text is the folder label or merely contains the word for
    folder.
   */
  predicate LooksLikeFolderAsWritten(typeText: string) {
    typeText == FolderLabel || Contains(typeText, "文件夹")
  }

  lemma ContainsFolderWord()
    ensures LooksLikeFolderAsWritten("[文件] 文件夹")
  {
    var t := "[文件] 文件夹";
    assert t[5..8] == "文件夹";
    assert OccursAt(t, "文件夹", 5);
  }

  lemma DisplayOfFolderWordFile()
    ensures FileTypeDisplay("x.文件夹", false) == "[文件] 文件夹"
  {
    FolderWordExtension();
    assert TypeLabel(".文件夹") == None;
    assert Upper("文件夹") == "文件夹";
  }

  lemma FolderWordExtension()
    ensures Extension("x.文件夹") == ".文件夹" && LowerExt("x.文件夹") == ".文件夹"
  {
    ExtensionOfStemAndSuffix("x", "文件夹", 0);
    assert "x" + "." + "文件夹" == "x.文件夹";
    assert Lower(".文件夹") == ".文件夹";
  }

  /**
    A regular file whose extension is the word for folder is taken for a
    folder by the test as written.
   */
  lemma FolderTestMisreadsFile()
    ensures LooksLikeFolderAsWritten(FileTypeDisplay("x.文件夹", false))
    ensures !IsFolderRow(FileTypeDisplay("x.文件夹", false))
  {
    DisplayOfFolderWordFile();
    ContainsFolderWord();
  }

  /** The folder test the file list evidently intends. */
  predicate IsFolderRow(typeText: string) {
    typeText == FolderLabel
  }

  /** Which folder test an operation of the file list applies. */
  datatype FolderTest = AsWritten | Corrected

  predicate TakenForFolder(t: FolderTest, typeText: string) {
    match t
    case AsWritten => LooksLikeFolderAsWritten(typeText)
    case Corrected => IsFolderRow(typeText)
  }

  lemma TypeLabelNeverFolder(ext: string)
    ensures TypeLabel(ext) != Some(FolderLabel)
  {
  }

  /** The corrected test reads a row as a folder exactly when it is one. */
  lemma FolderRowIffDirectory(name: string, isDir: bool)
    ensures IsFolderRow(FileTypeDisplay(name, isDir)) <==> isDir
  {
    if !isDir {
      var ext := LowerExt(name);
      if TypeLabel(ext).Some? {
        TypeLabelNeverFolder(ext);
      } else if ext != [] {
        var r := OtherPrefix + Upper(Extension(name)[1..]);
        assert r[3] == ']';
      } else {
        assert UnknownLabel[3] == ']';
      }
    }
  }
}

=== FILE: paths.dfy ===
/**
  Remote paths. Every child path in the client is built the same way:
  `f"{parent.rstrip('/')}/{name}"`, for sub-folders added to the tree, for
  the folder entered by a double click, for the file to download and for the
  image whose thumbnail is fetched.
 */
module Paths {

  import opened Text

  const Root := "/"

  /**
    `head` is `parent` without its trailing slashes: a prefix of it, the
    rest of `parent` made of slashes only, and not itself ending in a slash.
   */
  ghost predicate IsStrippedOf(head: string, parent: string) {
    && |head| <= |parent|
    && head == parent[..|head|]
    && (forall i :: |head| <= i < |parent| ==> parent[i] == '/')
    && (head == [] || head[|head| - 1] != '/')
  }

  lemma StrippedUnique(h1: string, h2: string, parent: string)
    requires IsStrippedOf(h1, parent) && IsStrippedOf(h2, parent)
    ensures h1 == h2
  {
    assert h1 == [] || parent[|h1| - 1] != '/';
    assert h2 == [] || parent[|h2| - 1] != '/';
    assert |h1| == |h2|;
  }

  /** The child path: the parent without trailing slashes, one slash, the name. */
  function ChildPath(parent: string, name: string): (r: string)
    ensures |name| + 1 <= |r| && r[|r| - |name|..] == name && r[|r| - |name| - 1] == '/'
    ensures IsStrippedOf(r[..|r| - |name| - 1], parent)
  {
    var head := RStripChar(parent, '/');
    var r := head + "/" + name;
    assert r[..|r| - |name| - 1] == head;
    assert r[|r| - |name|..] == name;
    r
  }

  /** Under the root the child path is the name after one slash. */
  lemma ChildOfRoot(name: string)
    ensures ChildPath(Root, name) == "/" + name
  {
  }

  /** A parent written with or without trailing slashes names the same children. */
  lemma ChildPathIgnoresTrailingSlash(parent: string, name: string)
    ensures ChildPath(parent + "/", name) == ChildPath(parent, name)
  {
    var a, b := ChildPath(parent + "/", name), ChildPath(parent, name);
    var ha, hb := a[..|a| - |name| - 1], b[..|b| - |name| - 1];
    assert IsStrippedOf(ha, parent) by {
      assert IsStrippedOf(ha, parent + "/");
      assert ha == [] || (parent + "/")[|ha| - 1] != '/';
      assert (parent + "/")[|parent|] == '/';
      assert |ha| <= |parent|;
      assert (parent + "/")[..|ha|] == parent[..|ha|];
    }
    StrippedUnique(ha, hb, parent);
    assert a == ha + "/" + name;
    assert b == hb + "/" + name;
  }

  /**
    The path of the file to download: the source special-cases the root
    folder, and that branch gives the same path as the general join.
   */
  function DownloadPath(currentPath: string, filename: string): (r: string)
    ensures r == ChildPath(currentPath, filename)
  {
    if currentPath == Root then "/" + filename
    else ChildPath(currentPath, filename)
  }
}

/**
  The thumbnail cache of the icon views: rendered thumbnails keyed by
  `f"{filename}_{view_mode}"`. A lookup either hits or schedules a
  background load and returns nothing; a finished load stores its result
  only when a thumbnail could be rendered.
 */
module Thumbnails {

  import opened Wrappers
  import opened Text

  /** A rendered thumbnail; the pixels are not modelled. */
  datatype Thumbnail = Thumbnail(handle: nat)

  type Cache = map<string, Thumbnail>

  /** The five display modes of the file list. */
  const ViewModes: set<string> := {"列表视图", "平铺视图", "小图标", "中图标", "大图标"}

  function CacheKey(filename: string, viewMode: string): (k: string)
    ensures |k| == |filename| + 1 + |viewMode|
  {
    filename + "_" + viewMode
  }

  predicate NoUnderscore(s: string) {
    forall i :: 0 <= i < |s| ==> s[i] != '_'
  }

  /**
    Keys do not collide while the view mode has no underscore: the last
    underscore of a key separates the file name from the mode.
   */
  lemma CacheKeyInjective(f1: string, m1: string, f2: string, m2: string)
    requires NoUnderscore(m1) && NoUnderscore(m2)
    requires CacheKey(f1, m1) == CacheKey(f2, m2)
    ensures f1 == f2 && m1 == m2
  {
    var k := CacheKey(f1, m1);
    assert forall j :: |f1| < j < |k| ==> k[j] == m1[j - |f1| - 1] != '_';
    assert forall j :: |f2| < j < |k| ==> k[j] == m2[j - |f2| - 1] != '_';
    assert k[|f1|] == '_' && k[|f2|] == '_';
    assert |f1| == |f2|;
    assert f1 == k[..|f1|] == f2;
    assert m1 == k[|f1| + 1..] == m2;
  }

  lemma ViewModesHaveNoUnderscore(m: string)
    requires m in ViewModes
    ensures NoUnderscore(m)
  {
  }

  datatype Lookup = Cached(image: Thumbnail) | LoadScheduled(key: string)

  /** `get_image_thumbnail`: the cached thumbnail, or a load is started. */
  function GetImageThumbnail(cache: Cache, filename: string, viewMode: string): (r: Lookup)
    ensures r.Cached? <==> CacheKey(filename, viewMode) in cache
    ensures r.Cached? ==> r.image == cache[CacheKey(filename, viewMode)]
    ensures r.LoadScheduled? ==> r.key == CacheKey(filename, viewMode)
  {
    var key := CacheKey(filename, viewMode);
    if key in cache then Cached(cache[key]) else LoadScheduled(key)
  }

  /** `_update_thumbnail_cache`, reached only when rendering produced a thumbnail. */
  function StoreThumbnail(cache: Cache, key: string, rendered: Option<Thumbnail>): (r: Cache)
    ensures rendered.None? ==> r == cache
    ensures rendered.Some? ==> r.Keys == cache.Keys + {key} && r[key] == rendered.value
    ensures forall k :: k in cache && k != key ==> k in r && r[k] == cache[k]
  {
    if rendered.Some? then cache[key := rendered.value] else cache
  }

  /** A stored thumbnail is what the next lookup of the same file and mode returns. */
  lemma StoreThenGet(cache: Cache, filename: string, viewMode: string, t: Thumbnail)
    ensures GetImageThumbnail(StoreThumbnail(cache, CacheKey(filename, viewMode), Some(t)), filename, viewMode)
            == Cached(t)
  {
  }

  /** Storing the thumbnail of one file and mode leaves every other lookup as it was. */
  lemma StoreLeavesOtherLookups(cache: Cache, f: string, m: string, f2: string, m2: string, t: Option<Thumbnail>)
    requires m in ViewModes && m2 in ViewModes
    requires f != f2 || m != m2
    ensures GetImageThumbnail(StoreThumbnail(cache, CacheKey(f, m), t), f2, m2)
            == GetImageThumbnail(cache, f2, m2)
  {
    ViewModesHaveNoUnderscore(m);
    ViewModesHaveNoUnderscore(m2);
    if CacheKey(f, m) == CacheKey(f2, m2) {
      CacheKeyInjective(f, m, f2, m2);
    }
  }

  /** `clear_thumbnail_cache`, also part of logging out. */
  function ClearThumbnailCache(cache: Cache): (r: Cache)
    ensures forall f, m :: GetImageThumbnail(r, f, m).LoadScheduled?
  {
    map[]
  }
}

=== FILE: replies.dfy ===
/**
  Server replies as input values. Every request the client sends either
  raises inside the HTTP library or answers with a status, a content type
  and a body that may or may not be JSON. The JSON bodies of the FileStation
  API carry a `success` flag, an error code on failure, and on success a
  `data` object (for listings, with a `files` array).
 */
module Replies {

  import opened Wrappers
  import opened Text

  /** Why a request raised instead of giving a usable JSON body. */
  datatype Failure =
    | TimedOut              // the library's timeout exception
    | Unreachable           // the library's connection error
    | HttpError(status: int) // raised by the status check
    | NotJson               // the body could not be decoded as JSON
    | MissingKey            // a successful body without the expected `data` or `files`
    | StreamBroken          // the connection failed while a download was streamed

  /** The `error.code` of a failed reply: usually a number, possibly absent. */
  datatype Code = Code(n: int) | NoCode | OtherCode(text: string)

  /** One entry of a folder listing; `size` is absent without the `additional` fields. */
  datatype Entry = Entry(name: string, isDir: bool, size: Option<int>)

  datatype Data = Data(files: Option<seq<Entry>>)

  datatype Json = Json(success: bool, code: Code, data: Option<Data>)

  datatype Reply =
    | Failed(failure: Failure)
    | Answered(status: int, contentType: string, body: Option<Json>)

  /** The statuses the library's status check raises for. */
  predicate IsHttpError(status: int) {
    400 <= status < 600
  }

  /** How an error code is rendered into a message: absent codes read "unknown". */
  function CodeText(c: Code): (t: string)
    ensures c.Code? ==> t == IntToString(c.n)
    ensures c.NoCode? ==> t == "unknown"
  {
    match c
    case Code(n) => IntToString(n)
    case NoCode => "unknown"
    case OtherCode(text) => text
  }

  datatype Decoded = Ok(json: Json) | Err(failure: Failure)

  /** The status check followed by JSON decoding, as most requests do. */
  function CheckedJson(r: Reply): (d: Decoded)
    ensures d.Ok? <==> r.Answered? && !IsHttpError(r.status) && r.body.Some?
    ensures d.Ok? ==> d.json == r.body.value
    ensures r.Failed? ==> d == Err(r.failure)
    ensures r.Answered? && IsHttpError(r.status) ==> d == Err(HttpError(r.status))
  {
    match r
    case Failed(f) => Err(f)
    case Answered(status, _, body) =>
      if IsHttpError(status) then Err(HttpError(status))
      else if body.None? then Err(NotJson)
      else Ok(body.value)
  }

  /** JSON decoding without the status check. */
  function UncheckedJson(r: Reply): (d: Decoded)
    ensures d.Ok? <==> r.Answered? && r.body.Some?
    ensures d.Ok? ==> d.json == r.body.value
    ensures r.Failed? ==> d == Err(r.failure)
  {
    match r
    case Failed(f) => Err(f)
    case Answered(_, _, body) => if body.None? then Err(NotJson) else Ok(body.value)
  }

  /** A successful body with a `data` object. */
  predicate HasData(j: Json) {
    j.success && j.data.Some?
  }

  /**
    An error-code message: the fixed text of a known numeric code, otherwise
    the fallback text followed by the code.
   */
  function CodeMessage(known: map<int, string>, fallback: string, c: Code): (m: string)
    ensures c.Code? && c.n in known ==> m == known[c.n]
    ensures !(c.Code? && c.n in known) ==> StartsWith(m, fallback) && m[|fallback|..] == CodeText(c)
  {
    if c.Code? && c.n in known then known[c.n]
    else
      var m := fallback + CodeText(c);
      assert m[..|fallback|] == fallback;
      m
  }

  /** No two known codes share a text, and no known text looks like a fallback. */
  predicate Unambiguous(known: map<int, string>, fallback: string) {
    && (forall a, b :: a in known && b in known && known[a] == known[b] ==> a == b)
    && (forall a :: a in known ==> !StartsWith(known[a], fallback))
  }

  /**
    With an unambiguous table, the message of a numeric code determines the
    code: the user can always tell which error the server reported.
   */
  lemma CodeMessageIdentifiesCode(known: map<int, string>, fallback: string, a: int, b: int)
    requires Unambiguous(known, fallback)
    requires CodeMessage(known, fallback, Code(a)) == CodeMessage(known, fallback, Code(b))
    ensures a == b
  {
    var m := CodeMessage(known, fallback, Code(a));
    assert a in known ==> !StartsWith(m, fallback);
    assert b in known ==> !StartsWith(m, fallback);
    assert a in known <==> b in known;
    if a !in known {
      assert m[|fallback|..] == IntToString(a) == IntToString(b);
      IntToStringInjective(a, b);
    }
  }
}

=== FILE: session.dfy ===
/**
  The connection to the NAS as a sequential state machine. The state holds
  the profile store (whose form the login reads), the session mark, the
  credentials of the last successful login, the current remote folder and
  the thumbnail cache. Authentication is carried by cookies; the client only
  remembers that it is logged in by setting the session mark to
  "cookie_auth". Each request's reply is an input.
 */
module Session {

  import opened Wrappers
  import opened Text
  import opened Vault
  import opened ConfigFile
  import opened Profiles
  import opened Replies
  import opened Thumbnails

  const CookieAuth := "cookie_auth"

  datatype Credentials = Credentials(nasUrl: string, username: string, password: string)

  datatype App = App(
    store: Store,
    sessionId: Option<string>,
    lastLogin: Option<Credentials>,
    currentPath: string,
    cache: Cache)

  /** The window as it opens, before the configuration is read. */
  function Opened(disk: Option<Config>): (a: App)
    ensures a.sessionId.None? && a.lastLogin.None? && a.currentPath == "/" && a.cache == map[]
  {
    App(Profiles.Initial(disk), None, None, "/", map[])
  }

  /** The session mark is either absent or the cookie marker. */
  ghost predicate Good(a: App) {
    WellFormed(a.store) && (a.sessionId.Some? ==> a.sessionId.value == CookieAuth)
  }

  // ---------------------------------------------------------------------
  // Logging in
  // ---------------------------------------------------------------------

  datatype Validation = MissingUrl | MissingUsername | MissingPassword | Valid

  /**
    `login`: the three fields are checked after trimming, in order; only a
    complete form starts the login.
   */
  function ValidateLogin(f: Form): (r: Validation)
    ensures r == Valid <==> Strip(f.nasUrl) != [] && Strip(f.username) != [] && Strip(f.password) != []
    ensures r == MissingUrl <==> Strip(f.nasUrl) == []
    ensures r == MissingUsername <==> Strip(f.nasUrl) != [] && Strip(f.username) == []
  {
    if Strip(f.nasUrl) == [] then MissingUrl
    else if Strip(f.username) == [] then MissingUsername
    else if Strip(f.password) == [] then MissingPassword
    else Valid
  }

  function ValidationMessage(r: Validation): string
    requires r != Valid
  {
    match r
    case MissingUrl => "请输入NAS地址"
    case MissingUsername => "请输入用户名"
    case MissingPassword => "请输入密码"
  }

  /** The fixed messages of the authentication error codes. */
  const AuthErrors: map<int, string> := map[
    400 := "账号或密码错误",
    401 := "账号已被禁用",
    402 := "权限不足",
    403 := "需要双重验证",
    404 := "双重验证码错误"]

  const AuthFallback := "登录失败，错误代码: "

  function AuthMessage(c: Code): (m: string)
    ensures c.Code? && 400 <= c.n <= 404 ==> m == AuthErrors[c.n]
    ensures !(c.Code? && 400 <= c.n <= 404) ==> m == AuthFallback + CodeText(c)
  {
    CodeMessage(AuthErrors, AuthFallback, c)
  }

  lemma AuthErrorsUnambiguous()
    ensures Unambiguous(AuthErrors, AuthFallback)
  {
    forall a | a in AuthErrors ensures !StartsWith(AuthErrors[a], AuthFallback) {
      assert AuthErrors[a][0] != AuthFallback[0];
    }
  }

  /** Two numeric authentication codes with the same message are the same code. */
  lemma AuthMessageIdentifiesCode(a: int, b: int)
    requires AuthMessage(Code(a)) == AuthMessage(Code(b))
    ensures a == b
  {
    AuthErrorsUnambiguous();
    CodeMessageIdentifiesCode(AuthErrors, AuthFallback, a, b);
  }

  datatype LoginError =
    | Network(failure: Failure)   // the library's exception, or its timeout or connection message
    | ProbeRejected(code: Code)   // "获取API信息失败" with the error object
    | AuthRejected(message: string)
    | VerifyFailed                // "登录成功但会话验证失败，请检查账户权限"

  /** The texts the login shows for the two exceptions it names. */
  function NetworkMessage(f: Failure): (m: Option<string>)
    ensures m.Some? <==> f == TimedOut || f == Unreachable
  {
    match f
    case TimedOut => Some("连接超时，请检查NAS地址")
    case Unreachable => Some("无法连接到NAS，请检查地址和端口")
    case _ => None
  }

  /**
    `verify_session`: without a session mark nothing is sent; otherwise the
    session is valid exactly when the reply decodes as JSON with success.
    The status of the reply is not checked.
   */
  function VerifySession(sessionId: Option<string>, reply: Reply): (ok: bool)
    ensures sessionId.None? ==> !ok
    ensures sessionId.Some? ==> (ok <==> UncheckedJson(reply).Ok? && UncheckedJson(reply).json.success)
  {
    if sessionId.None? then false
    else
      match UncheckedJson(reply)
      case Ok(j) => j.success
      case Err(_) => false
  }

  datatype LoginResult = LoginResult(app: App, error: Option<LoginError>)

  /**
    `_on_login_success`: the form is remembered as the last login, the
    selected profile is saved silently, and the configuration is written.
   */
  function OnLoginSuccess(a: App, v: Vault): (r: App)
    requires Good(a)
    ensures Good(r)
    ensures r.lastLogin == Some(Credentials(a.store.form.nasUrl, a.store.form.username, a.store.form.password))
    ensures r.sessionId == a.sessionId && r.currentPath == a.currentPath && r.cache == a.cache
    ensures r.store.disk.Some? && r.store.form == a.store.form && r.store.selected == a.store.selected
    ensures r.store.profiles == AutoSave(a.store, v).profiles
    ensures r.store.remember == a.store.remember && r.store.combo == a.store.combo
    ensures var l := Read(r.store.disk.value);
      && l.Loaded? && l.remember == Some(a.store.remember) && l.lastProfile == ReadValue(a.store.selected)
      && SameProfilesTrimmed(l.profiles, r.store.profiles)
  {
    var f := a.store.form;
    a.(lastLogin := Some(Credentials(f.nasUrl, f.username, f.password)),
       store := SaveConfig(AutoSave(a.store, v)))
  }

  /**
    `_login_thread` with the replies to the API probe, the authentication
    and the session check. Each step runs only if the ones before it
    succeeded. A successful authentication marks the session before it is
    checked, so a failed check leaves the mark set.
   */
  function LoginThread(a: App, v: Vault, probe: Reply, auth: Reply, verify: Reply): (r: LoginResult)
    requires Good(a)
    ensures Good(r.app)
    ensures r.error.None? <==>
      && CheckedJson(probe).Ok? && HasData(CheckedJson(probe).json)
      && CheckedJson(auth).Ok? && CheckedJson(auth).json.success
      && VerifySession(Some(CookieAuth), verify)
    ensures r.error.None? ==> r.app == OnLoginSuccess(a.(sessionId := Some(CookieAuth)), v)
    ensures var accepted := CheckedJson(probe).Ok? && HasData(CheckedJson(probe).json)
                            && CheckedJson(auth).Ok? && CheckedJson(auth).json.success;
      && (accepted ==> r.app.sessionId == Some(CookieAuth))
      && (!accepted ==> r.app == a)
    ensures r.error.Some? ==> r.app.store == a.store && r.app.lastLogin == a.lastLogin
    ensures CheckedJson(probe).Err? ==> r.error == Some(Network(CheckedJson(probe).failure))
    ensures CheckedJson(probe).Ok? && !CheckedJson(probe).json.success ==>
      r.error == Some(ProbeRejected(CheckedJson(probe).json.code))
    ensures CheckedJson(probe).Ok? && CheckedJson(probe).json.success && CheckedJson(probe).json.data.None? ==>
      r.error == Some(Network(MissingKey))
    ensures CheckedJson(probe).Ok? && HasData(CheckedJson(probe).json) ==>
      && (CheckedJson(auth).Err? ==> r.error == Some(Network(CheckedJson(auth).failure)))
      && (CheckedJson(auth).Ok? && !CheckedJson(auth).json.success ==>
            r.error == Some(AuthRejected(AuthMessage(CheckedJson(auth).json.code))))
      && (CheckedJson(auth).Ok? && CheckedJson(auth).json.success && !VerifySession(Some(CookieAuth), verify) ==>
            r.error == Some(VerifyFailed))
  {
    match CheckedJson(probe)
    case Err(f) => LoginResult(a, Some(Network(f)))
    case Ok(p) =>
      if !p.success then LoginResult(a, Some(ProbeRejected(p.code)))
      else if p.data.None? then LoginResult(a, Some(Network(MissingKey)))
      else
        match CheckedJson(auth)
        case Err(f) => LoginResult(a, Some(Network(f)))
        case Ok(j) =>
          if !j.success then LoginResult(a, Some(AuthRejected(AuthMessage(j.code))))
          else
            var marked := a.(sessionId := Some(CookieAuth));
            if !VerifySession(marked.sessionId, verify) then LoginResult(marked, Some(VerifyFailed))
            else LoginResult(OnLoginSuccess(marked, v), None)
  }

  /**
    A login ends connected only after the server accepted the credentials
    and the following session check succeeded; the credentials typed are
    then the ones remembered for reconnecting.
   */
  lemma LoginSucceedsOnlyWhenVerified(a: App, v: Vault, probe: Reply, auth: Reply, verify: Reply)
    requires Good(a)
    requires LoginThread(a, v, probe, auth, verify).error.None?
    ensures var r := LoginThread(a, v, probe, auth, verify).app;
      && auth.Answered? && auth.body.Some? && auth.body.value.success
      && verify.Answered? && verify.body.Some? && verify.body.value.success
      && r.sessionId == Some(CookieAuth)
      && r.lastLogin == Some(Credentials(a.store.form.nasUrl, a.store.form.username, a.store.form.password))
  {
  }

  /**
    A session check that fails after the server accepted the credentials
    leaves the session marked: the client reports the failure but later
    operations still see a session.
   */
  lemma FailedCheckLeavesSessionMarked(a: App, v: Vault, probe: Reply, auth: Reply, verify: Reply)
    requires Good(a)
    requires CheckedJson(probe).Ok? && HasData(CheckedJson(probe).json)
    requires CheckedJson(auth).Ok? && CheckedJson(auth).json.success
    requires !VerifySession(Some(CookieAuth), verify)
    ensures var r := LoginThread(a, v, probe, auth, verify);
      r.error == Some(VerifyFailed) && r.app.sessionId == Some(CookieAuth) && r.app.lastLogin == a.lastLogin
  {
  }

  // ---------------------------------------------------------------------
  // Keeping the session alive
  // ---------------------------------------------------------------------

  datatype Refresh = Refresh(app: App, ok: bool, reauthenticated: bool)

  /**
    `refresh_session_if_needed` with the replies to the session check and
    to the one re-authentication it may send with the remembered
    credentials. Without a session or remembered credentials nothing is
    sent and the answer is no.
   */
  function RefreshSessionIfNeeded(a: App, verify: Reply, auth: Reply): (r: Refresh)
    requires Good(a)
    ensures Good(r.app) && r.app == a
    ensures a.sessionId.None? || a.lastLogin.None? ==> !r.ok && !r.reauthenticated
    ensures a.sessionId.Some? && a.lastLogin.Some? ==>
      && (r.reauthenticated <==> !VerifySession(a.sessionId, verify))
      && (r.ok <==>
            VerifySession(a.sessionId, verify) || (UncheckedJson(auth).Ok? && UncheckedJson(auth).json.success))
  {
    if a.sessionId.None? || a.lastLogin.None? then Refresh(a, false, false)
    else if VerifySession(a.sessionId, verify) then Refresh(a, true, false)
    else
      match UncheckedJson(auth)
      case Err(_) => Refresh(a, false, true)
      case Ok(j) =>
        if j.success then Refresh(a.(sessionId := Some(CookieAuth)), true, true)
        else Refresh(a, false, true)
  }

  datatype AutoLogin = CannotReconnect | Reconnecting(result: LoginResult)

  /**
    `try_auto_login`: the remembered credentials are put back into the form
    and the login runs again; without them the user is asked to reconnect.
   */
  function TryAutoLogin(a: App, v: Vault, probe: Reply, auth: Reply, verify: Reply): (r: AutoLogin)
    requires Good(a)
    ensures a.lastLogin.None? <==> r == CannotReconnect
    ensures r.Reconnecting? ==> Good(r.result.app)
    ensures r.Reconnecting? && r.result.error.None? ==> r.result.app.lastLogin == a.lastLogin
  {
    match a.lastLogin
    case None => CannotReconnect
    case Some(c) =>
      var restored := a.(store := a.store.(form := Form(c.nasUrl, c.username, c.password)));
      Reconnecting(LoginThread(restored, v, probe, auth, verify))
  }

  // ---------------------------------------------------------------------
  // Logging out
  // ---------------------------------------------------------------------

  datatype Logout = Logout(app: App, requestSent: bool)

  /**
    `logout`: a logout request is sent only with a session, and whatever it
    answers the session, the remembered credentials, the current folder and
    the thumbnail cache are reset; the password field is cleared unless
    passwords are remembered.
   */
  function LogOut(a: App): (r: Logout)
    requires Good(a)
    ensures Good(r.app)
    ensures r.requestSent <==> a.sessionId.Some?
    ensures r.app.sessionId.None? && r.app.lastLogin.None? && r.app.currentPath == "/" && r.app.cache == map[]
    ensures r.app.store.form.password == (if a.store.remember then a.store.form.password else "")
    ensures r.app.store.form.nasUrl == a.store.form.nasUrl && r.app.store.form.username == a.store.form.username
    ensures r.app.store.profiles == a.store.profiles && r.app.store.disk == a.store.disk
  {
    var reset := a.(sessionId := None, currentPath := "/", lastLogin := None, cache := ClearThumbnailCache(a.cache));
    var kept := if a.store.remember then reset.store.form else reset.store.form.(password := "");
    Logout(reset.(store := reset.store.(form := kept)), a.sessionId.Some?)
  }

  /** After logging out nothing can be refreshed or reconnected. */
  lemma LogoutEndsSession(a: App, v: Vault, verify: Reply, auth: Reply, probe: Reply)
    requires Good(a)
    ensures var out := LogOut(a).app;
      && !RefreshSessionIfNeeded(out, verify, auth).ok
      && !VerifySession(out.sessionId, verify)
      && TryAutoLogin(out, v, probe, auth, verify) == CannotReconnect
  {
  }

  /**
    After a login, a later refresh whose session check passes keeps the
    session without re-authenticating: the login left both a session and
    the credentials to refresh with.
   */
  lemma LoginThenRefresh(a: App, v: Vault, probe: Reply, auth: Reply, verify: Reply,
                         verify2: Reply, auth2: Reply)
    requires Good(a)
    requires LoginThread(a, v, probe, auth, verify).error.None?
    requires VerifySession(Some(CookieAuth), verify2)
    ensures var r := RefreshSessionIfNeeded(LoginThread(a, v, probe, auth, verify).app, verify2, auth2);
      r.ok && !r.reauthenticated
  {
  }

  // ---------------------------------------------------------------------
  // Moving between folders
  // ---------------------------------------------------------------------

  /** `on_directory_select`: a non-empty path of the folder tree becomes the current folder. */
  function OnDirectorySelect(a: App, path: Option<string>): (r: App)
    ensures path.Some? && path.value != "" ==> r == a.(currentPath := path.value)
    ensures path.None? || path.value == "" ==> r == a
  {
    if path.Some? && path.value != "" then a.(currentPath := path.value) else a
  }
}

=== FILE: store.dfy ===
/**
  The profile store of the login panel: the three input fields, the
  "remember" check box, the profile combo box with its selection, the
  profiles in memory, and the configuration file on disk (`None` when there
  is no file). Every user action on profiles is a function from one store to
  the next; dialogs and confirmations are inputs.
 */
module Profiles {

  import opened Wrappers
  import opened Text
  import opened Dicts
  import opened Vault
  import opened ConfigFile

  /** The last entry of the combo box, which opens the "new profile" dialog. */
  const Sentinel := "新建配置..."

  datatype Form = Form(nasUrl: string, username: string, password: string)

  const BlankForm := Form("", "", "")

  datatype Store = Store(
    form: Form,
    remember: bool,
    selected: string,
    profiles: Dict<Profile>,
    combo: seq<string>,
    disk: Option<Config>)

  /** Messages shown to the user, by meaning. */
  datatype Notice =
    | Quiet
    | NameTaken(name: string)
    | FieldsMissing
    | ProfileSaved(name: string)
    | NothingSelected
    | ProfileDeleted(name: string)
    | NoProfiles
    | AllCleared

  datatype Outcome = Outcome(store: Store, notice: Notice)

  /** The store when the window opens, before the configuration is read. */
  function Initial(disk: Option<Config>): (s: Store)
    ensures s.profiles.IsEmpty() && s.form == BlankForm && !s.remember && s.disk == disk
  {
    Store(BlankForm, false, "", Empty(), [], disk)
  }

  /**
    What every action keeps: the combo box lists the profiles in order
    followed by the sentinel, and the selection is empty, the sentinel or
    a profile.
   */
  ghost predicate Consistent(s: Store) {
    WellFormed(s) && s.combo == s.profiles.keys + [Sentinel]
  }

  /** Consistency before the combo box is first filled. */
  ghost predicate WellFormed(s: Store) {
    && s.profiles.Valid()
    && (s.selected == "" || s.selected == Sentinel || s.selected in s.profiles.items)
    && (s.disk.Some? ==> s.disk.value.Valid())
  }

  /** A selection that names a profile to save into or delete. */
  predicate NamesProfile(selected: string) {
    selected != "" && selected != Sentinel
  }

  /** `update_profile_combo`. */
  function UpdateProfileCombo(s: Store): (r: Store)
    ensures r.combo == s.profiles.keys + [Sentinel]
    ensures s.profiles.IsEmpty() ==> r.selected == ""
    ensures !s.profiles.IsEmpty() ==> r.selected == s.selected
    ensures r.form == s.form && r.remember == s.remember && r.profiles == s.profiles && r.disk == s.disk
  {
    var names := s.profiles.keys + [Sentinel];
    s.(combo := names, selected := if |names| == 1 then "" else s.selected)
  }

  /** `save_config`, writing without interpolation. */
  function SaveConfig(s: Store): (r: Store)
    requires s.profiles.Valid()
    ensures r.disk.Some? && r.disk.value.Valid()
    ensures Read(r.disk.value).Loaded? && Read(r.disk.value).remember == Some(s.remember)
    ensures Read(r.disk.value).lastProfile == ReadValue(s.selected)
    ensures SameProfilesTrimmed(Read(r.disk.value).profiles, s.profiles)
    ensures r == s.(disk := r.disk)
  {
    WriteThenRead(s.profiles, s.selected, s.remember);
    s.(disk := Some(Write(s.profiles, s.selected, s.remember)))
  }

  /** The form filled from a saved profile. */
  function FormFrom(p: Profile, remember: bool, v: Vault): (f: Form)
    ensures f.nasUrl == p.nasUrl && f.username == p.username
    ensures !remember ==> f.password == ""
    ensures remember ==> f.password == DecryptPassword(v, p.password)
  {
    Form(p.nasUrl, p.username, if remember then DecryptPassword(v, p.password) else "")
  }

  /**
    `load_profile`: fills the form from a known profile; the password only
    when passwords are remembered. An unknown name changes nothing.
   */
  function LoadProfile(s: Store, name: string, v: Vault): (r: Store)
    ensures name !in s.profiles.items ==> r == s
    ensures name in s.profiles.items ==> r == s.(form := FormFrom(s.profiles.items[name], s.remember, v))
  {
    if name in s.profiles.items then s.(form := FormFrom(s.profiles.items[name], s.remember, v)) else s
  }

  const EmptyProfile := Profile("", "", "")

  /**
    `create_new_profile` with the dialog's answer (`None` when cancelled).
    A new name gets an empty profile, which is selected; it is not written
    to disk until it is saved.
   */
  function CreateNewProfile(s: Store, answer: Option<string>): (o: Outcome)
    requires WellFormed(s)
    ensures answer.None? || Strip(answer.value) == [] ==> o == Outcome(s, Quiet)
    ensures answer.Some? && Strip(answer.value) != [] && Strip(answer.value) in s.profiles.items ==>
      o == Outcome(s, NameTaken(Strip(answer.value)))
    ensures answer.Some? && Strip(answer.value) != [] && Strip(answer.value) !in s.profiles.items ==>
      var name := Strip(answer.value);
      && o.notice == Quiet
      && o.store.profiles.keys == s.profiles.keys + [name]
      && o.store.profiles.items == s.profiles.items[name := EmptyProfile]
      && o.store.selected == name && o.store.form == BlankForm
      && o.store.remember == s.remember && o.store.disk == s.disk
      && Consistent(o.store)
    ensures WellFormed(o.store) && (Consistent(s) ==> Consistent(o.store))
  {
    if answer.None? || Strip(answer.value) == [] then Outcome(s, Quiet)
    else
      var name := Strip(answer.value);
      if name in s.profiles.items then Outcome(s, NameTaken(name))
      else
        var added := s.(form := BlankForm, selected := name, profiles := Put(s.profiles, name, EmptyProfile));
        Outcome(UpdateProfileCombo(added).(selected := name), Quiet)
  }

  /**
    `save_current_profile`. Without a named selection it creates a profile
    instead. The address and user name are trimmed and both required; the
    password is stored encrypted only when passwords are remembered.
   */
  function SaveCurrentProfile(s: Store, v: Vault, answer: Option<string>): (o: Outcome)
    requires WellFormed(s)
    ensures !NamesProfile(s.selected) ==> o == CreateNewProfile(s, answer)
    ensures NamesProfile(s.selected) && (Strip(s.form.nasUrl) == [] || Strip(s.form.username) == []) ==>
      o == Outcome(s, FieldsMissing)
    ensures NamesProfile(s.selected) && Strip(s.form.nasUrl) != [] && Strip(s.form.username) != [] ==>
      && o.notice == ProfileSaved(s.selected)
      && o.store.profiles == Put(s.profiles, s.selected,
           Profile(Strip(s.form.nasUrl), Strip(s.form.username), StoredPassword(v, s.remember, s.form.password)))
      && o.store.form == s.form && o.store.selected == s.selected && o.store.remember == s.remember
      && o.store.disk == Some(Write(o.store.profiles, s.selected, s.remember))
      && o.store.combo == s.combo
    ensures WellFormed(o.store) && (Consistent(s) ==> Consistent(o.store))
  {
    if !NamesProfile(s.selected) then CreateNewProfile(s, answer)
    else
      var url, user := Strip(s.form.nasUrl), Strip(s.form.username);
      if url == [] || user == [] then Outcome(s, FieldsMissing)
      else
        var p := Profile(url, user, StoredPassword(v, s.remember, s.form.password));
        Outcome(SaveConfig(s.(profiles := Put(s.profiles, s.selected, p))), ProfileSaved(s.selected))
  }

  /**
    `auto_save_current_profile`: silently saves the form, untrimmed, into
    the selected profile, but only into a profile that already exists.
   */
  function AutoSave(s: Store, v: Vault): (r: Store)
    requires WellFormed(s)
    ensures !(NamesProfile(s.selected) && s.selected in s.profiles.items) ==> r == s
    ensures NamesProfile(s.selected) && s.selected in s.profiles.items ==>
      && r.profiles.keys == s.profiles.keys
      && r.profiles.items == s.profiles.items[s.selected :=
           Profile(s.form.nasUrl, s.form.username, StoredPassword(v, s.remember, s.form.password))]
      && r.disk == Some(Write(r.profiles, s.selected, s.remember))
      && r.form == s.form && r.selected == s.selected
    ensures WellFormed(r) && r.combo == s.combo && r.remember == s.remember
    ensures Consistent(s) ==> Consistent(r)
  {
    if NamesProfile(s.selected) && s.selected in s.profiles.items then
      var p := Profile(s.form.nasUrl, s.form.username, StoredPassword(v, s.remember, s.form.password));
      SaveConfig(s.(profiles := Put(s.profiles, s.selected, p)))
    else s
  }

  /**
    `delete_current_profile` with the confirmation answer: the selected
    profile goes, the form and the selection are cleared and the file is
    rewritten.
   */
  function DeleteCurrentProfile(s: Store, confirmed: bool): (o: Outcome)
    requires WellFormed(s)
    ensures WellFormed(o.store) && (Consistent(s) ==> Consistent(o.store))
    ensures !NamesProfile(s.selected) ==> o == Outcome(s, NothingSelected)
    ensures NamesProfile(s.selected) && !confirmed ==> o == Outcome(s, Quiet)
    ensures NamesProfile(s.selected) && confirmed ==>
      && o.notice == ProfileDeleted(s.selected)
      && o.store.profiles.items == s.profiles.items - {s.selected}
      && o.store.profiles.keys == Without(s.profiles.keys, s.selected)
      && o.store.form == BlankForm && o.store.selected == ""
      && o.store.disk == Some(Write(o.store.profiles, "", s.remember))
      && Consistent(o.store)
  {
    if !NamesProfile(s.selected) then Outcome(s, NothingSelected)
    else if !confirmed then Outcome(s, Quiet)
    else
      var kept := if s.selected in s.profiles.items then Remove(s.profiles, s.selected) else s.profiles;
      var cleared := s.(profiles := kept, form := BlankForm, selected := "");
      Outcome(SaveConfig(UpdateProfileCombo(cleared)), ProfileDeleted(s.selected))
  }

  /**
    `clear_all_profiles` with the confirmation answer: the file is deleted,
    every profile forgotten and "remember" unchecked. Nothing is written
    afterwards.
   */
  function ClearAllProfiles(s: Store, confirmed: bool): (o: Outcome)
    requires WellFormed(s)
    ensures WellFormed(o.store) && (Consistent(s) ==> Consistent(o.store))
    ensures s.profiles.items == map[] ==> o == Outcome(s, NoProfiles)
    ensures s.profiles.items != map[] && !confirmed ==> o == Outcome(s, Quiet)
    ensures s.profiles.items != map[] && confirmed ==>
      o == Outcome(Store(BlankForm, false, "", Empty(), [Sentinel], None), AllCleared)
  {
    if s.profiles.items == map[] then Outcome(s, NoProfiles)
    else if !confirmed then Outcome(s, Quiet)
    else
      var cleared := s.(disk := None, profiles := Empty(), form := BlankForm, selected := "", remember := false);
      Outcome(UpdateProfileCombo(cleared), AllCleared)
  }

  /** `on_profile_selected`: the sentinel opens the dialog, a profile is loaded. */
  function OnProfileSelected(s: Store, v: Vault, answer: Option<string>): (o: Outcome)
    requires WellFormed(s)
    ensures s.selected == Sentinel ==> o == CreateNewProfile(s, answer)
    ensures s.selected != Sentinel ==> o == Outcome(LoadProfile(s, s.selected, v), Quiet)
    ensures WellFormed(o.store) && (Consistent(s) ==> Consistent(o.store))
  {
    if s.selected == Sentinel then CreateNewProfile(s, answer)
    else Outcome(LoadProfile(s, s.selected, v), Quiet)
  }

  /** Every profile with its password field emptied. */
  function ForgetPasswords(d: Dict<Profile>): (r: Dict<Profile>)
    requires d.Valid()
    ensures r.Valid() && r.keys == d.keys && r.items.Keys == d.items.Keys
    ensures forall n :: n in r.items ==> r.items[n] == d.items[n].(password := "")
  {
    Dict(d.keys, map n | n in d.items :: d.items[n].(password := ""))
  }

  /**
    The "remember" check box was toggled (`remember` is its new value).
    Unchecking it forgets every stored password and rewrites the file;
    checking it saves the file when a password is typed.
   */
  function RememberToggled(s: Store): (r: Store)
    requires WellFormed(s)
    ensures WellFormed(r) && r.combo == s.combo && (Consistent(s) ==> Consistent(r))
    ensures !s.remember ==> r.profiles == ForgetPasswords(s.profiles)
    ensures !s.remember || s.form.password != "" ==> r.disk == Some(Write(r.profiles, s.selected, s.remember))
    ensures s.remember && s.form.password == "" ==> r == s
    ensures s.remember ==> r.profiles == s.profiles
    ensures r.form == s.form && r.selected == s.selected && r.remember == s.remember
  {
    if !s.remember then SaveConfig(s.(profiles := ForgetPasswords(s.profiles)))
    else if s.form.password != "" then SaveConfig(s)
    else s
  }

  /**
    `on_remember_password_changed` as written: unchecking rewrites the file
    with the profiles unchanged, so the encrypted passwords stay on disk.
   */
  function RememberToggledAsWritten(s: Store): (r: Store)
    requires WellFormed(s)
    ensures !s.remember || s.form.password != "" ==> r == SaveConfig(s)
    ensures s.remember && s.form.password == "" ==> r == s
    ensures WellFormed(r) && r.combo == s.combo
  {
    if !s.remember then SaveConfig(s)
    else if s.form.password != "" then SaveConfig(s)
    else s
  }

  /**
    The part of `load_config` after a successful read, on the store of a
    freshly opened window: the flag, when the file has one, and the profiles
    are taken over; the combo box is refilled; the last profile, when it
    still exists, is selected and loaded.
   */
  function Adopt(disk: Option<Config>, l: Loaded, v: Vault): (r: Store)
    requires (disk.Some? ==> disk.value.Valid()) && l.Loaded? && l.profiles.Valid()
    ensures Consistent(r)
    ensures r.profiles == l.profiles && r.disk == disk
    ensures r.remember == (l.remember == Some(true))
    ensures l.lastProfile != "" && l.lastProfile in l.profiles.items ==>
      r.selected == l.lastProfile && r.form == FormFrom(l.profiles.items[l.lastProfile], r.remember, v)
    ensures !(l.lastProfile != "" && l.lastProfile in l.profiles.items) ==>
      r.selected == "" && r.form == BlankForm
  {
    var flagged := Initial(disk).(remember := if l.remember.Some? then l.remember.value else false,
                                  profiles := l.profiles);
    var listed := UpdateProfileCombo(flagged);
    if l.lastProfile != "" && l.lastProfile in l.profiles.items then
      LoadProfile(listed.(selected := l.lastProfile), l.lastProfile, v)
    else listed
  }

  /**
    `load_config`, run once when the window opens, on the file `disk`.
    Without a file only the combo box is filled; a remember flag that is not
    a boolean aborts the load and leaves the window as it opened, with an
    empty combo box.
   */
  function LoadConfig(disk: Option<Config>, v: Vault): (r: Store)
    requires disk.Some? ==> disk.value.Valid()
    ensures WellFormed(r) && r.disk == disk
    ensures disk.None? ==> r == Initial(None).(combo := [Sentinel])
    ensures disk.Some? && Read(disk.value).BadRememberFlag? ==> r == Initial(disk)
    ensures disk.Some? && Read(disk.value).Loaded? ==> r == Adopt(disk, Read(disk.value), v)
  {
    if disk.None? then UpdateProfileCombo(Initial(disk))
    else
      var l := Read(disk.value);
      if l.BadRememberFlag? then Initial(disk) else Adopt(disk, l, v)
  }

  // ---------------------------------------------------------------------
  // What saving, deleting and clearing mean for the next start
  // ---------------------------------------------------------------------

  /** A ciphertext has no surrounding blanks, so reading it back keeps it whole. */
  lemma Base64Stripped(c: string)
    requires IsBase64Text(c)
    ensures Strip(c) == c
  {
    assert c == [] || (!IsSpace(c[0]) && !IsSpace(c[|c| - 1])) by {
      if c != [] {
        assert IsBase64Char(c[0]) && IsBase64Char(c[|c| - 1]);
      }
    }
    StripOfTrimmed(c);
  }

  /**
    Saving the form and loading the same profile again gives the trimmed
    address and user name back, and the typed password exactly when it was
    remembered and could be encrypted; otherwise the password comes back
    empty.
   */
  lemma SaveThenLoadRestoresForm(s: Store, v: Vault, answer: Option<string>)
    requires Consistent(s) && Sound(v) && NamesProfile(s.selected)
    requires Strip(s.form.nasUrl) != [] && Strip(s.form.username) != []
    ensures var f := LoadProfile(SaveCurrentProfile(s, v, answer).store, s.selected, v).form;
      && f.nasUrl == Strip(s.form.nasUrl) && f.username == Strip(s.form.username)
      && (s.remember && s.form.password != "" && v.encrypt(s.form.password).Some? ==> f.password == s.form.password)
      && (!s.remember || s.form.password == "" || v.encrypt(s.form.password).None? ==> f.password == "")
  {
    StoredPasswordRoundTrip(v, s.remember, s.form.password);
  }

  /**
    After a successful save, starting the program again on the file selects
    the saved profile, restores the remember flag and fills the form exactly
    as loading the profile in the running program would. (The profile name
    is read back trimmed, so it must have no surrounding blanks; names typed
    into the dialog never do.)
   */
  lemma RestartRestoresSaved(s: Store, v: Vault, answer: Option<string>)
    requires Consistent(s) && Sound(v) && NamesProfile(s.selected) && Strip(s.selected) == s.selected
    requires Strip(s.form.nasUrl) != [] && Strip(s.form.username) != []
    ensures var saved := SaveCurrentProfile(s, v, answer).store;
      var r := LoadConfig(saved.disk, v);
      && r.selected == s.selected && r.remember == s.remember
      && r.profiles.keys == saved.profiles.keys
      && r.form == LoadProfile(saved, s.selected, v).form
  {
    var saved := SaveCurrentProfile(s, v, answer).store;
    var P := saved.profiles;
    var p := P.items[s.selected];
    WriteThenRead(P, s.selected, s.remember);
    var l := Read(saved.disk.value);
    assert l.profiles.items[s.selected] == StripProfile(p);
    StripIdempotent(s.form.nasUrl);
    StripIdempotent(s.form.username);
    StoredPasswordRoundTrip(v, s.remember, s.form.password);
    Base64Stripped(p.password);
    assert StripProfile(p) == p;
  }

  /** A deleted profile is gone after a restart, and nothing is selected. */
  lemma DeleteThenRestart(s: Store, v: Vault)
    requires Consistent(s) && NamesProfile(s.selected)
    ensures var deleted := DeleteCurrentProfile(s, true).store;
      var r := LoadConfig(deleted.disk, v);
      && s.selected !in r.profiles.items
      && r.profiles.keys == Without(s.profiles.keys, s.selected)
      && r.selected == "" && r.form == BlankForm
  {
    var deleted := DeleteCurrentProfile(s, true).store;
    WriteThenRead(deleted.profiles, "", s.remember);
    var l := Read(deleted.disk.value);
    assert s.selected !in l.profiles.items by {
      assert s.selected !in deleted.profiles.items;
    }
  }

  /** After clearing all profiles a restart finds no file: no profiles, nothing remembered. */
  lemma ClearThenRestart(s: Store, v: Vault)
    requires Consistent(s) && s.profiles.items != map[]
    ensures var r := LoadConfig(ClearAllProfiles(s, true).store.disk, v);
      r.profiles.items == map[] && !r.remember && r.form == BlankForm && r.combo == [Sentinel]
  {
  }

  /**
    A load aborted by a bad "remember" flag leaves the file in place but no
    profile in the store, and every action stays available on that store.
   */
  lemma BadFlagLoadKeepsNoProfiles(c: Config, v: Vault)
    requires c.Valid() && Read(c).BadRememberFlag?
    ensures var s := LoadConfig(Some(c), v);
      WellFormed(s) && s.profiles.keys == [] && s.disk == Some(c)
  {
  }

  /**
    Creating and saving one profile in a store without profiles, such as
    the one an aborted load leaves, rewrites the file with that profile
    alone: whatever the file held before is gone.
   */
  lemma SaveIntoEmptyStore(s0: Store, v: Vault, name: string, f: Form)
    requires WellFormed(s0) && s0.profiles.keys == []
    requires Strip(name) == name && NamesProfile(name)
    requires Strip(f.nasUrl) != [] && Strip(f.username) != []
    ensures var s1 := CreateNewProfile(s0, Some(name)).store.(form := f);
      var s2 := SaveCurrentProfile(s1, v, None).store;
      && s2.disk.Some? && Read(s2.disk.value).Loaded?
      && Read(s2.disk.value).profiles.keys == [name]
  {
    var s1 := CreateNewProfile(s0, Some(name)).store.(form := f);
    assert s1.profiles.keys == [name];
    var s2 := SaveCurrentProfile(s1, v, None).store;
    assert s2.profiles.keys == [name];
  }

  /**
    As written, unchecking "remember" leaves every encrypted password in the
    file: a profile that held a ciphertext still holds it after a restart.
   */
  lemma UncheckKeepsCiphertextAsWritten(s: Store, name: string)
    requires Consistent(s) && !s.remember
    requires name in s.profiles.items && s.profiles.items[name].password != ""
    requires IsBase64Text(s.profiles.items[name].password)
    ensures var l := Read(RememberToggledAsWritten(s).disk.value);
      l.Loaded? && name in l.profiles.items && l.profiles.items[name].password == s.profiles.items[name].password
  {
    WriteThenRead(s.profiles, s.selected, s.remember);
    Base64Stripped(s.profiles.items[name].password);
  }

  /** With the correction, no password is left in the file once "remember" is unchecked. */
  lemma UncheckForgetsPasswords(s: Store)
    requires Consistent(s) && !s.remember
    ensures var l := Read(RememberToggled(s).disk.value);
      && l.Loaded? && l.profiles.keys == s.profiles.keys
      && forall n :: n in l.profiles.items ==> l.profiles.items[n].password == ""
  {
    var P := ForgetPasswords(s.profiles);
    WriteThenRead(P, s.selected, s.remember);
    var l := Read(RememberToggled(s).disk.value);
    forall n | n in l.profiles.items ensures l.profiles.items[n].password == "" {
      assert l.profiles.items[n] == StripProfile(P.items[n]);
    }
  }
}

=== FILE: text.dfy ===
/** Small wrappers shared by every module. */
module Wrappers {

  datatype Option<+T> = None | Some(value: T)

}

/**
  String helpers with the semantics of the Python built-ins the client uses:
  `str.strip`, `str.rstrip('/')`, `str.lower`/`str.upper` on ASCII letters,
  `str.startswith`, the `in` substring test and decimal rendering of integers.
 */
module Text {

  import opened Wrappers

  /** The characters for which Python's `str.isspace` is true. */
  predicate IsSpace(c: char) {
    || c == ' ' || c == '\t' || c == '\n' || c == '\r'
    || c == '\U{B}' || c == '\U{C}'
    || ('\U{1C}' <= c <= '\U{1F}')
    || c == '\U{85}' || c == '\U{A0}' || c == '\U{1680}'
    || ('\U{2000}' <= c <= '\U{200A}')
    || c == '\U{2028}' || c == '\U{2029}' || c == '\U{202F}' || c == '\U{205F}'
    || c == '\U{3000}'
  }

  predicate AllSpace(s: string) {
    forall i :: 0 <= i < |s| ==> IsSpace(s[i])
  }

  /** `s.lstrip()`: the longest suffix of `s` that does not start with whitespace. */
  function TrimLeft(s: string): (r: string)
    ensures |r| <= |s| && r == s[|s| - |r|..]
    ensures AllSpace(s[..|s| - |r|])
    ensures r == [] || !IsSpace(r[0])
    decreases |s|
  {
    if |s| > 0 && IsSpace(s[0]) then TrimLeft(s[1..]) else s
  }

  /** `s.rstrip()`: the longest prefix of `s` that does not end with whitespace. */
  function TrimRight(s: string): (r: string)
    ensures |r| <= |s| && r == s[..|r|]
    ensures AllSpace(s[|r|..])
    ensures r == [] || !IsSpace(r[|r| - 1])
    decreases |s|
  {
    if |s| > 0 && IsSpace(s[|s| - 1]) then TrimRight(s[..|s| - 1]) else s
  }

  /** `s.strip()`: blank exactly when every character of `s` is whitespace. */
  function Strip(s: string): (r: string)
    ensures |r| <= |s|
    ensures r == [] <==> AllSpace(s)
    ensures r == [] || (!IsSpace(r[0]) && !IsSpace(r[|r| - 1]))
  {
    var l := TrimLeft(s);
    var r := TrimRight(l);
    assert r == [] ==> AllSpace(s) by {
      if r == [] {
        assert s == s[..|s| - |l|] + l;
        assert AllSpace(l[|r|..]);
      }
    }
    r
  }

  /** A string with no whitespace at either end is its own strip. */
  lemma StripOfTrimmed(s: string)
    requires s == [] || (!IsSpace(s[0]) && !IsSpace(s[|s| - 1]))
    ensures Strip(s) == s
  {
  }

  lemma StripIdempotent(s: string)
    ensures Strip(Strip(s)) == Strip(s)
  {
    StripOfTrimmed(Strip(s));
  }

  /** `s.rstrip(c)`: `s` without its run of trailing `c` characters. */
  function RStripChar(s: string, c: char): (r: string)
    ensures |r| <= |s| && r == s[..|r|]
    ensures forall i :: |r| <= i < |s| ==> s[i] == c
    ensures r == [] || r[|r| - 1] != c
    decreases |s|
  {
    if |s| > 0 && s[|s| - 1] == c then RStripChar(s[..|s| - 1], c) else s
  }

  predicate StartsWith(s: string, prefix: string) {
    |prefix| <= |s| && s[..|prefix|] == prefix
  }

  predicate OccursAt(s: string, sub: string, i: int) {
    0 <= i <= |s| - |sub| && s[i..i + |sub|] == sub
  }

  /** Python's `sub in s` on strings. */
  predicate Contains(s: string, sub: string) {
    exists i :: 0 <= i <= |s| - |sub| && OccursAt(s, sub, i)
  }

  function LowerChar(c: char): char {
    if 'A' <= c <= 'Z' then (c as int + 32) as char else c
  }

  function UpperChar(c: char): char {
    if 'a' <= c <= 'z' then (c as int - 32) as char else c
  }

  function Lower(s: string): (r: string)
    ensures |r| == |s|
    ensures forall i :: 0 <= i < |s| ==> r[i] == LowerChar(s[i])
  {
    seq(|s|, i requires 0 <= i < |s| => LowerChar(s[i]))
  }

  function Upper(s: string): (r: string)
    ensures |r| == |s|
    ensures forall i :: 0 <= i < |s| ==> r[i] == UpperChar(s[i])
  {
    seq(|s|, i requires 0 <= i < |s| => UpperChar(s[i]))
  }

  /** Upper-casing does not depend on the case the text had. */
  lemma UpperIgnoresLower(s: string)
    ensures Upper(Lower(s)) == Upper(s)
  {
    assert forall i :: 0 <= i < |s| ==> UpperChar(LowerChar(s[i])) == UpperChar(s[i]);
  }

  predicate IsDigit(c: char) {
    '0' <= c <= '9'
  }

  function DigitChar(d: nat): (c: char)
    requires d < 10
    ensures IsDigit(c) && c as int - '0' as int == d
  {
    ('0' as int + d) as char
  }

  function DigitValue(c: char): nat
    requires IsDigit(c)
  {
    c as int - '0' as int
  }

  /** The decimal rendering of `n`, as `str(n)` produces it. */
  function NatToString(n: nat): (s: string)
    ensures |s| >= 1
    ensures forall i :: 0 <= i < |s| ==> IsDigit(s[i])
    ensures |s| > 1 ==> s[0] != '0'
  {
    if n < 10 then [DigitChar(n)] else NatToString(n / 10) + [DigitChar(n % 10)]
  }

  /** The number a string of decimal digits denotes. */
  function DigitsValue(s: string): nat
    requires forall i :: 0 <= i < |s| ==> IsDigit(s[i])
  {
    if |s| == 0 then 0 else DigitsValue(s[..|s| - 1]) * 10 + DigitValue(s[|s| - 1])
  }

  /** Reading the decimal rendering back gives the number: the rendering loses nothing. */
  lemma {:induction false} NatToStringRoundTrip(n: nat)
    ensures DigitsValue(NatToString(n)) == n
  {
    if n >= 10 {
      var a := NatToString(n / 10);
      var s := a + [DigitChar(n % 10)];
      assert s[..|s| - 1] == a;
      NatToStringRoundTrip(n / 10);
    }
  }

  lemma NatToStringInjective(a: nat, b: nat)
    requires NatToString(a) == NatToString(b)
    ensures a == b
  {
    NatToStringRoundTrip(a);
    NatToStringRoundTrip(b);
  }

  /** `str(i)` for a Python int: a minus sign before the magnitude when negative. */
  function IntToString(i: int): (s: string)
    ensures |s| >= 1
    ensures (s[0] == '-') <==> i < 0
  {
    if i < 0 then "-" + NatToString(-i) else NatToString(i)
  }

  lemma IntToStringInjective(a: int, b: int)
    requires IntToString(a) == IntToString(b)
    ensures a == b
  {
    if a < 0 && b < 0 {
      assert NatToString(-a) == IntToString(a)[1..];
      assert NatToString(-b) == IntToString(b)[1..];
      NatToStringInjective(-a, -b);
    } else if a >= 0 && b >= 0 {
      NatToStringInjective(a, b);
    }
  }
}

=== FILE: transfers.dfy ===
/**
  Listing a folder, uploading into it and downloading from it: the branches
  the client takes on each server reply, the rows it shows, and the bytes it
  writes.
 */
module Transfers {

  import opened Wrappers
  import opened Text
  import opened FileSize
  import opened FileTypes
  import opened Paths
  import opened Profiles
  import opened Replies
  import opened Session

  // ---------------------------------------------------------------------
  // Listing
  // ---------------------------------------------------------------------

  datatype ListError = ListFailed(failure: Failure) | ListRejected(code: Code)

  datatype Listing = Listing(requests: nat, result: ListResult)

  datatype ListResult = Files(files: seq<Entry>) | NotListed(error: ListError)

  /** The files of a successful body, or the missing key. */
  function FilesOf(j: Json): (r: ListResult)
    requires j.success
    ensures r.Files? <==> j.data.Some? && j.data.value.files.Some?
    ensures r.Files? ==> r.files == j.data.value.files.value
  {
    if j.data.Some? && j.data.value.files.Some? then Files(j.data.value.files.value)
    else NotListed(ListFailed(MissingKey))
  }

  /**
    `_load_files_thread` with the replies to the request with the `additional`
    fields and to the plain request sent only when the first one is refused
    with code 400. The second reply's status is not checked; if it still
    fails, its error is reported.
   */
  function LoadFiles(first: Reply, second: Reply): (r: Listing)
    ensures r.requests == 2 <==>
      CheckedJson(first).Ok? && !CheckedJson(first).json.success && CheckedJson(first).json.code == Code(400)
    ensures r.requests == 1 || r.requests == 2
    ensures CheckedJson(first).Err? ==> r == Listing(1, NotListed(ListFailed(CheckedJson(first).failure)))
    ensures CheckedJson(first).Ok? && CheckedJson(first).json.success ==>
      r == Listing(1, FilesOf(CheckedJson(first).json))
    ensures CheckedJson(first).Ok? && !CheckedJson(first).json.success && CheckedJson(first).json.code != Code(400) ==>
      r == Listing(1, NotListed(ListRejected(CheckedJson(first).json.code)))
    ensures r.requests == 1 && r.result.Files? ==> CheckedJson(first).Ok? && CheckedJson(first).json.success
    ensures r.requests == 2 && r.result.Files? ==> UncheckedJson(second).Ok? && UncheckedJson(second).json.success
    ensures r.requests == 2 && UncheckedJson(second).Err? ==>
      r.result == NotListed(ListFailed(UncheckedJson(second).failure))
    ensures r.requests == 2 && UncheckedJson(second).Ok? && UncheckedJson(second).json.success ==>
      r.result == FilesOf(UncheckedJson(second).json)
    ensures r.requests == 2 && UncheckedJson(second).Ok? && !UncheckedJson(second).json.success ==>
      r.result == NotListed(ListRejected(UncheckedJson(second).json.code))
  {
    match CheckedJson(first)
    case Err(f) => Listing(1, NotListed(ListFailed(f)))
    case Ok(j) =>
      if j.success then Listing(1, FilesOf(j))
      else if j.code != Code(400) then Listing(1, NotListed(ListRejected(j.code)))
      else
        match UncheckedJson(second)
        case Err(f) => Listing(2, NotListed(ListFailed(f)))
        case Ok(j2) =>
          if j2.success then Listing(2, FilesOf(j2))
          else Listing(2, NotListed(ListRejected(j2.code)))
  }

  /** A plain second reply that succeeds is used whatever its status. */
  lemma FallbackIgnoresStatus(first: Reply, status: int, contentType: string, files: seq<Entry>)
    requires CheckedJson(first).Ok? && !CheckedJson(first).json.success && CheckedJson(first).json.code == Code(400)
    ensures LoadFiles(first, Answered(status, contentType, Some(Json(true, NoCode, Some(Data(Some(files))))))).result
            == Files(files)
  {
  }

  /** A row of the file table: name, type text and size text. */
  datatype Row = Row(name: string, kind: string, size: string)

  /** `_update_file_list` for one entry; folders and entries without a size show no size. */
  function RowOf(e: Entry): (r: Row)
    ensures r.name == e.name && r.kind == FileTypeDisplay(e.name, e.isDir)
    ensures r.size != "" <==> !e.isDir && e.size.Some?
    ensures !e.isDir && e.size.Some? ==> r.size == FormatFileSize(e.size.value)
  {
    var size := if !e.isDir && e.size.Some? then FormatFileSize(e.size.value) else "";
    Row(e.name, FileTypeDisplay(e.name, e.isDir), size)
  }

  /** With the corrected test, a row is taken for a folder exactly when its entry is a directory. */
  lemma RowFolderIffDirectory(e: Entry)
    ensures IsFolderRow(RowOf(e).kind) <==> e.isDir
  {
    FolderRowIffDirectory(e.name, e.isDir);
  }

  datatype DoubleClick = Entered(app: App) | PreviewImage(name: string) | PreviewVideo(name: string) | Ignored

  /**
    `on_file_double_click` with the given folder test (`AsWritten` is the
    program's): a folder row is entered, otherwise an image or a video is
    previewed, and anything else is ignored.
   */
  function OnFileDoubleClick(t: FolderTest, a: App, row: Option<Row>): (r: DoubleClick)
    ensures row.None? ==> r == Ignored
    ensures row.Some? && TakenForFolder(t, row.value.kind) ==>
      r == Entered(a.(currentPath := ChildPath(a.currentPath, row.value.name)))
    ensures row.Some? && !TakenForFolder(t, row.value.kind) ==>
      && (IsImageFile(row.value.name) ==> r == PreviewImage(row.value.name))
      && (!IsImageFile(row.value.name) && IsVideoFile(row.value.name) ==> r == PreviewVideo(row.value.name))
      && (!IsImageFile(row.value.name) && !IsVideoFile(row.value.name) ==> r == Ignored)
  {
    match row
    case None => Ignored
    case Some(rw) =>
      if TakenForFolder(t, rw.kind) then Entered(a.(currentPath := ChildPath(a.currentPath, rw.name)))
      else if IsImageFile(rw.name) then PreviewImage(rw.name)
      else if IsVideoFile(rw.name) then PreviewVideo(rw.name)
      else Ignored
  }

  /**
    Double-clicking the row of a listed folder enters that folder below the
    current one, whichever folder test is applied.
   */
  lemma DoubleClickEntersFolder(t: FolderTest, a: App, e: Entry)
    requires e.isDir
    ensures var r := OnFileDoubleClick(t, a, Some(RowOf(e)));
      r.Entered? && IsStrippedOf(r.app.currentPath[..|r.app.currentPath| - |e.name| - 1], a.currentPath)
      && r.app.currentPath[|r.app.currentPath| - |e.name|..] == e.name
  {
    assert RowOf(e).kind == FolderLabel;
  }

  /**
    The file "x.文件夹" as written: a double click tries to enter it as a
    folder. With the corrected test it is a regular file and is ignored.
   */
  lemma DoubleClickOnFolderWordFile(a: App, size: Option<int>)
    ensures var row := Some(RowOf(Entry("x.文件夹", false, size)));
      && OnFileDoubleClick(AsWritten, a, row).Entered?
      && OnFileDoubleClick(Corrected, a, row) == Ignored
  {
    FolderTestMisreadsFile();
    FolderWordExtension();
    assert !IsImageFile("x.文件夹") && !IsVideoFile("x.文件夹");
  }

  // ---------------------------------------------------------------------
  // Checks before a transfer starts
  // ---------------------------------------------------------------------

  datatype Start<T> = NotLoggedIn | Expired(app: App) | Go(value: T) | Cancelled

  /**
    The checks of `upload_file` and `download_selected_file` before a file
    is chosen: a session must exist and pass the session check; a session
    that fails it is logged out.
   */
  function CheckSession(a: App, verify: Reply): (r: Start<App>)
    requires Good(a)
    ensures a.sessionId.None? <==> r == NotLoggedIn
    ensures a.sessionId.Some? && !VerifySession(a.sessionId, verify) ==> r == Expired(LogOut(a).app)
    ensures a.sessionId.Some? && VerifySession(a.sessionId, verify) ==> r == Go(a)
  {
    if a.sessionId.None? then NotLoggedIn
    else if !VerifySession(a.sessionId, verify) then Expired(LogOut(a).app)
    else Go(a)
  }

  datatype DownloadJob = DownloadJob(remotePath: string, savePath: string, filename: string)

  /**
    `download_selected_file` with the given folder test (`AsWritten` is the
    program's): after the session checks, the selected row must be a file
    and a save location must be chosen; the remote path is the current
    folder joined with the name.
   */
  function DownloadSelected(t: FolderTest, a: App, verify: Reply, row: Option<Row>, savePath: string)
    : (r: Start<DownloadJob>)
    requires Good(a)
    ensures a.sessionId.None? ==> r == NotLoggedIn
    ensures a.sessionId.Some? && !VerifySession(a.sessionId, verify) ==> r == Expired(LogOut(a).app)
    ensures r.Go? <==> && a.sessionId.Some? && VerifySession(a.sessionId, verify)
                       && row.Some? && !TakenForFolder(t, row.value.kind) && savePath != ""
    ensures r.Go? ==> r.value == DownloadJob(ChildPath(a.currentPath, row.value.name), savePath, row.value.name)
    ensures a.sessionId.Some? && VerifySession(a.sessionId, verify) && !r.Go? ==> r == Cancelled
  {
    match CheckSession(a, verify)
    case NotLoggedIn => NotLoggedIn
    case Expired(out) => Expired(out)
    case Cancelled => Cancelled
    case Go(_) =>
      if row.None? || TakenForFolder(t, row.value.kind) || savePath == "" then Cancelled
      else Go(DownloadJob(DownloadPath(a.currentPath, row.value.name), savePath, row.value.name))
  }

  /**
    The file "x.文件夹" as written is refused as a folder; with the
    corrected test its download starts.
   */
  lemma DownloadOfFolderWordFile(a: App, verify: Reply, size: Option<int>, savePath: string)
    requires Good(a) && a.sessionId.Some? && VerifySession(a.sessionId, verify) && savePath != ""
    ensures var row := Some(RowOf(Entry("x.文件夹", false, size)));
      && DownloadSelected(AsWritten, a, verify, row, savePath) == Cancelled
      && DownloadSelected(Corrected, a, verify, row, savePath).Go?
  {
    FolderTestMisreadsFile();
  }

  // ---------------------------------------------------------------------
  // Upload
  // ---------------------------------------------------------------------

  const UploadErrors: map<int, string> := map[
    119 := "会话未找到，请重新登录",
    407 := "操作不被允许，请检查文件夹权限",
    1800 := "上传数据不完整",
    1801 := "上传超时",
    1802 := "文件名信息缺失",
    1803 := "上传被取消",
    1804 := "文件过大",
    1805 := "文件已存在且无法覆盖"]

  const UploadFallback := "上传失败，错误代码: "

  const NoRootUpload := "请先选择一个共享文件夹，不能直接上传到根目录"
  const SessionCheckFailed := "会话验证失败，请重新登录"
  const Reconnecting := "会话已过期，正在尝试自动重新登录...\n请稍后再试上传操作"
  const ReconnectByHand := "\n\n请点击'断开'按钮后重新登录"

  function UploadMessage(c: Code): (m: string)
    ensures c.Code? && c.n in UploadErrors ==> m == UploadErrors[c.n]
    ensures !(c.Code? && c.n in UploadErrors) ==> m == UploadFallback + CodeText(c)
  {
    CodeMessage(UploadErrors, UploadFallback, c)
  }

  lemma UploadErrorsUnambiguous()
    ensures Unambiguous(UploadErrors, UploadFallback)
  {
    // The third character tells every text apart, from the others and from the fallback.
    assert forall a, b :: a in UploadErrors && b in UploadErrors && a != b ==> UploadErrors[a][2] != UploadErrors[b][2];
    assert forall a :: a in UploadErrors ==> UploadErrors[a][2] != UploadFallback[2];
  }

  /** Two numeric upload codes with the same message are the same code. */
  lemma UploadMessageIdentifiesCode(a: int, b: int)
    requires UploadMessage(Code(a)) == UploadMessage(Code(b))
    ensures a == b
  {
    UploadErrorsUnambiguous();
    CodeMessageIdentifiesCode(UploadErrors, UploadFallback, a, b);
  }

  datatype UploadOutcome = Uploaded(filename: string) | UploadFailed(message: UploadError)

  datatype UploadError = Said(text: string) | Raised(failure: Failure)

  datatype Upload = Upload(app: App, outcome: UploadOutcome, autoLogin: bool, posted: bool)

  /**
    `_upload_file_thread` with the replies to the session refresh and to the
    upload itself. Uploading into the root is refused before anything is
    sent. Code 119 drops the session and, when credentials are remembered,
    schedules an automatic login; the upload itself is not retried.
   */
  function UploadThread(a: App, filename: string, verify: Reply, auth: Reply, post: Reply): (r: Upload)
    requires Good(a)
    ensures Good(r.app)
    ensures a.currentPath == "/" ==> r == Upload(a, UploadFailed(Said(NoRootUpload)), false, false)
    ensures r.posted <==> a.currentPath != "/" && RefreshSessionIfNeeded(a, verify, auth).ok
    ensures r.outcome.Uploaded? <==> r.posted && CheckedJson(post).Ok? && CheckedJson(post).json.success
    ensures r.outcome.Uploaded? ==> r.outcome.filename == filename && r.app == a
    ensures r.autoLogin ==> a.lastLogin.Some?
    ensures r.app.sessionId.None? && a.sessionId.Some? <==>
      r.posted && CheckedJson(post).Ok? && !CheckedJson(post).json.success && CheckedJson(post).json.code == Code(119)
    ensures r.app == a.(sessionId := r.app.sessionId)
    ensures a.currentPath != "/" && !RefreshSessionIfNeeded(a, verify, auth).ok ==>
      r == Upload(a, UploadFailed(Said(SessionCheckFailed)), false, false)
    ensures r.posted && CheckedJson(post).Err? ==>
      r.outcome == UploadFailed(Raised(CheckedJson(post).failure)) && !r.autoLogin
    ensures r.posted && CheckedJson(post).Ok? && !CheckedJson(post).json.success
            && CheckedJson(post).json.code != Code(119) ==>
      r.outcome == UploadFailed(Said(UploadMessage(CheckedJson(post).json.code))) && !r.autoLogin
    ensures r.posted && CheckedJson(post).Ok? && !CheckedJson(post).json.success
            && CheckedJson(post).json.code == Code(119) ==>
      && (a.lastLogin.Some? ==> r.outcome == UploadFailed(Said(Reconnecting)) && r.autoLogin)
      && (a.lastLogin.None? ==>
            r.outcome == UploadFailed(Said(UploadMessage(Code(119)) + ReconnectByHand)) && !r.autoLogin)
  {
    if a.currentPath == "/" then Upload(a, UploadFailed(Said(NoRootUpload)), false, false)
    else if !RefreshSessionIfNeeded(a, verify, auth).ok then Upload(a, UploadFailed(Said(SessionCheckFailed)), false, false)
    else
      match CheckedJson(post)
      case Err(f) => Upload(a, UploadFailed(Raised(f)), false, true)
      case Ok(j) =>
        if j.success then Upload(a, Uploaded(filename), false, true)
        else if j.code == Code(119) then
          var dropped := a.(sessionId := None);
          if a.lastLogin.Some? then Upload(dropped, UploadFailed(Said(Reconnecting)), true, true)
          else Upload(dropped, UploadFailed(Said(UploadMessage(j.code) + ReconnectByHand)), false, true)
        else Upload(a, UploadFailed(Said(UploadMessage(j.code))), false, true)
  }

  /**
    After code 119 with remembered credentials the scheduled automatic login
    can run: it restores the form and logs in again.
   */
  lemma ExpiredUploadReconnects(a: App, v: Vault.Vault, filename: string, verify: Reply, auth: Reply,
                                post: Reply, probe2: Reply, auth2: Reply, verify2: Reply)
    requires Good(a) && a.lastLogin.Some?
    requires UploadThread(a, filename, verify, auth, post).posted
    requires CheckedJson(post).Ok? && !CheckedJson(post).json.success && CheckedJson(post).json.code == Code(119)
    ensures var u := UploadThread(a, filename, verify, auth, post);
      && u.autoLogin && u.app.sessionId.None?
      && TryAutoLogin(u.app, v, probe2, auth2, verify2).Reconnecting?
  {
  }

  // ---------------------------------------------------------------------
  // Download
  // ---------------------------------------------------------------------

  newtype Byte = x: int | 0 <= x < 256

  /** The bytes of a sequence of chunks, in order. */
  function Concat(chunks: seq<seq<Byte>>): (r: seq<Byte>)
  {
    if chunks == [] then [] else Concat(chunks[..|chunks| - 1]) + chunks[|chunks| - 1]
  }

  /** The total of the chunk lengths, which the client counts as it writes. */
  function TotalLength(chunks: seq<seq<Byte>>): nat
  {
    if chunks == [] then 0 else TotalLength(chunks[..|chunks| - 1]) + |chunks[|chunks| - 1]|
  }

  lemma {:induction false} ConcatLength(chunks: seq<seq<Byte>>)
    ensures |Concat(chunks)| == TotalLength(chunks)
  {
    if chunks != [] {
      ConcatLength(chunks[..|chunks| - 1]);
    }
  }

  lemma {:induction false} ConcatAppend(a: seq<seq<Byte>>, b: seq<seq<Byte>>)
    ensures Concat(a + b) == Concat(a) + Concat(b)
    decreases |b|
  {
    if b != [] {
      var b' := b[..|b| - 1];
      assert (a + b)[..|a + b| - 1] == a + b';
      assert (a + b)[|a + b| - 1] == b[|b| - 1];
      ConcatAppend(a, b');
      assert Concat(b) == Concat(b') + b[|b| - 1];
    } else {
      assert a + b == a;
    }
  }

  /** What arrived before the stream broke is a prefix of the whole file. */
  lemma ConcatPrefix(chunks: seq<seq<Byte>>, k: nat)
    requires k <= |chunks|
    ensures Concat(chunks[..k]) <= Concat(chunks)
  {
    ConcatAppend(chunks[..k], chunks[k..]);
    assert chunks[..k] + chunks[k..] == chunks;
  }

  /**
    The write loop: every non-empty chunk is appended to the file and its
    length added to the count of downloaded bytes.
   */
  method WriteChunks(chunks: seq<seq<Byte>>) returns (file: seq<Byte>, downloaded: nat)
    ensures file == Concat(chunks)
    ensures downloaded == |file| == TotalLength(chunks)
  {
    file, downloaded := [], 0;
    var i := 0;
    while i < |chunks|
      invariant 0 <= i <= |chunks|
      invariant file == Concat(chunks[..i])
      invariant downloaded == |file|
    {
      assert chunks[..i + 1][..i] == chunks[..i];
      if chunks[i] != [] {
        file := file + chunks[i];
        downloaded := downloaded + |chunks[i]|;
      }
      i := i + 1;
    }
    assert chunks[..i] == chunks;
    ConcatLength(chunks);
  }

  /**
    The body of a download: the chunks that arrived, and whether the
    connection broke after them.
   */
  datatype Stream = Stream(chunks: seq<seq<Byte>>, broken: bool)

  datatype DownloadError = DownloadFailed(failure: Failure) | DownloadRejected(message: string) | NoSession

  const DownloadFallback := "下载失败，错误代码: "

  datatype Download = Download(written: Option<seq<Byte>>, error: Option<DownloadError>)

  /** A reply whose content type names JSON is read as an error report. */
  predicate IsJsonType(contentType: string) {
    Contains(contentType, "application/json")
  }

  /**
    `_download_file_thread` with the replies to the session refresh and to
    the download request, and the streamed body. A JSON reply with success
    false raises before anything is written; any other reply is written out
    chunk by chunk, even a JSON reply with success true. A stream that
    breaks leaves what arrived in the file.
   */
  method DownloadThread(a: App, verify: Reply, auth: Reply, reply: Reply, body: Stream) returns (r: Download)
    requires Good(a)
    ensures !RefreshSessionIfNeeded(a, verify, auth).ok ==> r == Download(None, Some(NoSession))
    ensures r.written.Some? <==>
      && RefreshSessionIfNeeded(a, verify, auth).ok
      && reply.Answered? && !IsHttpError(reply.status)
      && (IsJsonType(reply.contentType) ==> reply.body.Some? && reply.body.value.success)
    ensures r.written.Some? ==> r.written.value == Concat(body.chunks)
    ensures r.written.Some? ==> (r.error.None? <==> !body.broken)
    ensures r.written.None? && RefreshSessionIfNeeded(a, verify, auth).ok && reply.Answered?
            && !IsHttpError(reply.status) && IsJsonType(reply.contentType)
            && reply.body.Some? && !reply.body.value.success ==>
      r.error == Some(DownloadRejected(DownloadFallback + CodeText(reply.body.value.code)))
    ensures r.written.None? ==> r.error.Some?
    ensures RefreshSessionIfNeeded(a, verify, auth).ok && reply.Failed? ==>
      r == Download(None, Some(DownloadFailed(reply.failure)))
    ensures RefreshSessionIfNeeded(a, verify, auth).ok && reply.Answered? && IsHttpError(reply.status) ==>
      r == Download(None, Some(DownloadFailed(HttpError(reply.status))))
    ensures RefreshSessionIfNeeded(a, verify, auth).ok && reply.Answered? && !IsHttpError(reply.status)
            && IsJsonType(reply.contentType) && reply.body.None? ==>
      r == Download(None, Some(DownloadFailed(NotJson)))
  {
    if !RefreshSessionIfNeeded(a, verify, auth).ok {
      return Download(None, Some(NoSession));
    }
    match reply {
      case Failed(f) =>
        return Download(None, Some(DownloadFailed(f)));
      case Answered(status, contentType, json) =>
        if IsHttpError(status) {
          return Download(None, Some(DownloadFailed(HttpError(status))));
        }
        if IsJsonType(contentType) {
          if json.None? {
            return Download(None, Some(DownloadFailed(NotJson)));
          }
          if !json.value.success {
            return Download(None, Some(DownloadRejected(DownloadFallback + CodeText(json.value.code))));
          }
        }
        var file, _ := WriteChunks(body.chunks);
        if body.broken {
          return Download(Some(file), Some(DownloadFailed(StreamBroken)));
        }
        return Download(Some(file), None);
    }
  }
}

=== FILE: vault.dfy ===
/**
  The password vault. Passwords are encrypted with a key derived from the
  login name and the working directory of the process; the cipher itself is
  not modelled. A `Vault` is the pair of operations as they behave for one
  machine key: each either produces a value or fails (raises). The client
  turns both an empty input and a failure into the empty string, so a
  password that cannot be encrypted is simply not remembered, and a
  ciphertext that cannot be decrypted (another machine, another folder, a
  damaged file) reads back as an empty password.
 */
module Vault {

  import opened Wrappers

  datatype Vault = Vault(encrypt: string -> Option<string>, decrypt: string -> Option<string>)

  /** The characters of URL-safe base64, the alphabet of every ciphertext. */
  predicate IsBase64Char(c: char) {
    ('A' <= c <= 'Z') || ('a' <= c <= 'z') || ('0' <= c <= '9') || c == '-' || c == '_' || c == '='
  }

  predicate IsBase64Text(s: string) {
    forall i :: 0 <= i < |s| ==> IsBase64Char(s[i])
  }

  /**
    What the cipher guarantees for one key: a ciphertext is non-empty
    URL-safe base64 text, and decrypting it with the same key gives the
    password back.
   */
  ghost predicate Sound(v: Vault) {
    forall p :: p != "" && v.encrypt(p).Some? ==>
      && v.encrypt(p).value != ""
      && IsBase64Text(v.encrypt(p).value)
      && v.decrypt(v.encrypt(p).value) == Some(p)
  }

  /** `encrypt_password`. */
  function EncryptPassword(v: Vault, password: string): (c: string)
    ensures password == "" ==> c == ""
    ensures c != "" ==> v.encrypt(password) == Some(c)
    ensures password != "" && v.encrypt(password).Some? ==> c == v.encrypt(password).value
  {
    if password == "" then ""
    else match v.encrypt(password)
      case None => ""
      case Some(c) => c
  }

  /** `decrypt_password`. */
  function DecryptPassword(v: Vault, ciphertext: string): (p: string)
    ensures ciphertext == "" ==> p == ""
    ensures v.decrypt(ciphertext).None? ==> p == ""
    ensures p != "" ==> v.decrypt(ciphertext) == Some(p)
  {
    if ciphertext == "" then ""
    else match v.decrypt(ciphertext)
      case None => ""
      case Some(p) => p
  }

  /**
    The password field of a saved profile: encrypted when passwords are
    remembered and one was typed, otherwise empty. An encryption failure
    also leaves it empty.
   */
  function StoredPassword(v: Vault, remember: bool, password: string): (c: string)
    ensures !remember || password == "" ==> c == ""
    ensures c != "" ==> remember && v.encrypt(password) == Some(c)
  {
    if remember && password != "" then EncryptPassword(v, password) else ""
  }

  /** With a sound vault, decrypting what was encrypted gives the password back. */
  lemma DecryptEncrypt(v: Vault, password: string)
    requires Sound(v)
    ensures EncryptPassword(v, password) != "" ==> DecryptPassword(v, EncryptPassword(v, password)) == password
    ensures EncryptPassword(v, password) == "" ==> DecryptPassword(v, EncryptPassword(v, password)) == ""
  {
  }

  /**
    Loading a saved password gives exactly what was typed, unless nothing
    was stored (not remembered, empty, or the cipher failed), in which case
    the password reads back empty.
   */
  lemma StoredPasswordRoundTrip(v: Vault, remember: bool, password: string)
    requires Sound(v)
    ensures var c := StoredPassword(v, remember, password);
      && (c != "" ==> DecryptPassword(v, c) == password)
      && (c == "" ==> DecryptPassword(v, c) == "")
      && (remember && password != "" && v.encrypt(password).Some? ==> c != "")
      && IsBase64Text(c)
  {
  }

  /** A vault whose key cannot decrypt anything clears every stored password on loading. */
  lemma ForeignKeyClearsPassword(v: Vault, ciphertext: string)
    requires forall c :: v.decrypt(c).None?
    ensures DecryptPassword(v, ciphertext) == ""
  {
  }
}
